=== FILE: README.md ===
# Bonding-curve trade orchestration, modelled in Dafny

This project models the trade flow of the bonding-curve token front end. It covers:

- the two trade buttons, `BuyButton` and `SellButton`. They guard a click, ask for an ERC-20 approval when the allowance is too small, submit the `buy`/`sell` contract call, and react to confirmations.
- the `StatusMessage` banner. It extracts a revert reason and a documentation link from a wallet error.
- the `TokenTrader` composition. It holds a single quantity and a single status shared by both buttons, and resets them a while after a success.
- the older single-component `components/TokenTrader.tsx`.
- the contract-call descriptors built by `useToken.ts`.

The model is written as pure functions.

- A click handler or an effect hook returns a sequence of `Effect`s:
  - a status change;
  - a change to the quantity;
  - a submitted wallet write;
  - a refetch;
  - the shared balance-update trigger;
  - an escaping exception.
- `Trader.Run` applies those effects to a session.
- Values the program reads from the chain are inputs of type `Option<nat>`: cost, refund, allowance and balance.
- So is a synchronous throw from a wallet call (`fault: Option<Failure>`). It is an input too.
- The order in which two effects that fire on the same confirmation finish their `await`s is an input flag, `resumeFirst`.

The program's arithmetic and text handling follow JavaScript's and viem's definitions, with the deviations listed under "Left out":

- `BigInt(text)`, whose empty string is `0`;
- viem's `parseEther`, which scales by 10^18;
- `String.prototype.includes`, `split` and `trim`;
- the lazy regular expression `/reason: (.*?)(?=\n|Contract Call|$)/`. Its `.` does not match `\n`, `\r`, U+2028 or U+2029, and the search returns the leftmost match.

The model keeps the program's defects rather than fixing them, and proves that each one exists:

- `BuyButton` destructures `approveToken`, but `useApproveReserveToken` returns `approveTokens`. An approval click therefore throws "approveToken is not a function" and submits nothing.
- No write hook in `useToken.ts` returns `isSuccess`. The confirmation effects are modelled as functions of that flag, and the flag is never set.
- `SellButton` compares the raw quantity with the allowance and the balance. It submits the quantity multiplied by 10^18.
- A zero or missing token allowance never triggers a sell approval.
- Both confirmation effects that react to an approval fire. Which of the two status messages remains depends on how their continuations interleave.

## Model

| member | source | states |
|---|---|---|
| Numbers.NatToString | bonding-app/src/app/components/token-trader/TokenTrader.tsx:34 | `toString()` of a `bigint` is a non-empty run of decimal digits with no leading zero |
| Numbers.DigitsOfNatToString | bonding-app/src/app/components/token-trader/TokenTrader.tsx:34 | reading back the decimal text of n as digits gives n |
| Numbers.ParseBigInt | bonding-app/src/app/components/token-trader/SellButton.tsx:36 | `BigInt(text)` succeeds exactly on an optionally signed digit string or the empty string; it gives the digit value, negated after a `-`, and 0 for the empty string |
| Numbers.ParseBigIntOfNatToString | bonding-app/src/app/components/token-trader/TokenTrader.tsx:78 | `BigInt` of a bigint's decimal text is the same bigint |
| Numbers.DropTrailingZeros | bonding-app/src/web3/hooks/useToken.ts:19 | the fraction that `parseEther` scales is a prefix of the typed fraction, and it differs from it only by trailing zeros |
| Numbers.ParseUnsignedEther | bonding-app/src/web3/hooks/useToken.ts:19 | a whole-number amount is read as that number times 10^18; text with a point is split at its first point, and both parts must be digits |
| Numbers.ParseEther | bonding-app/src/web3/hooks/useToken.ts:19 | `parseEther` scales digit strings by 10^18; a leading minus gives the negation of the unsigned reading and fails exactly when that reading fails |
| Numbers.EtherOfDecimal | bonding-app/src/web3/hooks/useToken.ts:19 | `parseEther(w + "." + f)` for digit runs `w`, `f` succeeds exactly when `f` has at most 18 digits once trailing zeros go, is `w * 10^18 + f * 10^(18 - \|f\|)` when `f` has at most 18 digits, and ignores trailing zeros of `f` |
| Numbers.EtherAccepts | bonding-app/src/web3/hooks/useToken.ts:19 | `parseEther` accepts exactly the text that, after an optional `-`, is digits with at most one point and at most 18 fraction digits once trailing zeros go |
| Numbers.DigitsOfTrailingZeros | bonding-app/src/web3/hooks/useToken.ts:19 | dropping k trailing zeros from a digit run divides its value by 10^k |
| Numbers.DecimalInPowersOfTen | bonding-app/src/web3/hooks/useToken.ts:19 | in one unit: `parseEther(w.f)` with at most 18 fraction digits is `w * 10^18 + f * 10^(18 - \|f\|)` |
| Numbers.Pow10Add | bonding-app/src/web3/hooks/useToken.ts:19 | powers of ten add exponents |
| Numbers.EtherScalesInteger | bonding-app/src/web3/hooks/useToken.ts:34 | for whole-number text, the `parseEther` amount is the `BigInt` amount times 10^18 |
| Numbers.EtherIsPow10 | bonding-app/src/web3/hooks/useToken.ts:19 | the ether unit is 10^18 |
| Numbers.Pow2Add | bonding-app/src/web3/hooks/useToken.ts:58 | powers of two add exponents; used to size `maxUint256` |
| Numbers.MaxUint256IsLargestWord | bonding-app/src/web3/hooks/useToken.ts:58 | `maxUint256` is 2^256 - 1 |
| Calls.TradeCall | bonding-app/src/web3/hooks/useToken.ts:11-39 | a trade write goes to the bonding curve with arguments `(token, parseEther(amount \|\| '0'))`, and exists exactly when that parse succeeds |
| Calls.BuyCall | bonding-app/src/web3/hooks/useToken.ts:11-24 | `buy(token, parseEther(amount \|\| '0'))` on the bonding curve, existing exactly when the parse succeeds; an empty amount buys 0 |
| Calls.SellCall | bonding-app/src/web3/hooks/useToken.ts:26-39 | `sell(token, parseEther(amount \|\| '0'))` on the bonding curve, existing exactly when the parse succeeds; an empty amount sells 0 |
| Calls.OrZero | bonding-app/src/web3/hooks/useToken.ts:19 | `amount \|\| '0'` is never empty and leaves typed text unchanged |
| Calls.BuyAndSellDifferOnlyInName | bonding-app/src/web3/hooks/useToken.ts:11-39 | the buy and sell descriptors exist for the same amounts and differ only in the function name |
| Calls.TradeAmountIsScaled | bonding-app/src/web3/hooks/useToken.ts:19 | a whole-number amount is submitted as the `BigInt` value times 10^18 |
| Calls.TradeAmountOfDecimal | bonding-app/src/web3/hooks/useToken.ts:19 | a decimal amount `w.f` with at most 18 fraction digits is submitted as `w * 10^18 + f * 10^(18 - \|f\|)` base units, so "1.5" buys 1.5 * 10^18 |
| Calls.ApproveReserveCall | bonding-app/src/web3/hooks/useToken.ts:50-63 | the reserve approval always grants the bonding curve 2^256 - 1 |
| Calls.ApprovalIgnoresAmount | bonding-app/src/web3/hooks/useToken.ts:50-58 | the amount given to the approve hook has no effect on the call |
| Calls.BalanceReadsDifferOnlyInContract | bonding-app/src/web3/hooks/useToken.ts:41-48 | the reserve and token balance reads are the same `balanceOf(account)` read on different contracts |
| Calls.ReserveBalanceRead | bonding-app/src/web3/hooks/useToken.ts:41-48 | the reserve balance read is `balanceOf(account)` on the reserve token, with the account `undefined` when no wallet is connected |
| Calls.TokenBalanceRead | bonding-app/src/web3/hooks/useToken.ts:97-104 | the token balance read is `balanceOf(account)` on the traded token, with the account `undefined` when no wallet is connected |
| Calls.ReserveAllowanceRead | bonding-app/src/web3/hooks/useToken.ts:65-79 | the allowance read carries `(account, bondingCurve)` exactly when an account is connected, and carries no arguments otherwise |
| Effects.Submissions | bonding-app/src/app/components/token-trader/BuyButton.tsx:103-120 | a write is among the submissions of a run of effects exactly when the run submits it, and there are never more submissions than effects |
| Effects.SubmissionsOfConcat | bonding-app/src/app/components/token-trader/BuyButton.tsx:41-58 | the submissions of a click followed by an effect are the click's submissions followed by the effect's |
| Effects.LastStatus | bonding-app/src/app/components/token-trader/TokenTrader.tsx:18 | the shared status after a run of effects is the status that the last status-setting effect set, or the prior status if none set one |
| Effects.AttemptWrite | bonding-app/src/app/components/token-trader/BuyButton.tsx:46-54 | an awaited write inside `try` either submits the call or sets an error status carrying the catch's action and the failure: the parse error when the call cannot be built, otherwise the wallet's |
| Effects.AfterApproval | bonding-app/src/app/components/token-trader/BuyButton.tsx:41-58 | after an approval confirms, the allowance is refetched first; only the resume path can submit, and with no quantity nothing is submitted |
| Effects.Finish | bonding-app/src/app/components/token-trader/BuyButton.tsx:70-71 | the success step of a trade-confirmed effect submits nothing, sets "Transaction successful!" for the trade, and ends by clearing the quantity |
| Effects.AfterTrade | bonding-app/src/app/components/token-trader/BuyButton.tsx:60-91 | the two confirmation effects refetch before any success, submit nothing, and leave the status at "Transaction successful!" and the quantity empty |
| StatusMessage.LazyEnd | bonding-app/src/app/components/token-trader/StatusMessage.tsx:8 | the lazy `(.*?)` stops at the first position where the lookahead holds, and fails if a line terminator comes first |
| StatusMessage.Capture | bonding-app/src/app/components/token-trader/StatusMessage.tsx:8 | the captured reason contains no line terminator |
| StatusMessage.MatchStart | bonding-app/src/app/components/token-trader/StatusMessage.tsx:8 | `match` reports the leftmost position at which the whole pattern succeeds |
| StatusMessage.FormatErrorMessage | bonding-app/src/app/components/token-trader/StatusMessage.tsx:5-12 | the message is unchanged when it lacks "reverted" or has no match; otherwise the result is a single trimmed line |
| StatusMessage.NoReasonKeepsMessage | bonding-app/src/app/components/token-trader/StatusMessage.tsx:5-12 | a message without "reason: " is shown unchanged, reverted or not |
| StatusMessage.FirstStop | bonding-app/src/app/components/token-trader/StatusMessage.tsx:8 | the first lookahead position after the tag: a newline, "Contract Call", or the end |
| StatusMessage.ReasonIsTextBeforeFirstStop | bonding-app/src/app/components/token-trader/StatusMessage.tsx:7-9 | for a reverted message whose first "reason: " has no line terminator before its first stop, the shown reason is the trimmed text up to that stop |
| StatusMessage.TagImpliesMarker | bonding-app/src/app/components/token-trader/StatusMessage.tsx:43-46 | a message that contains "Docs: " also passes the `includes('Docs:')` test |
| StatusMessage.FirstLineOfSecondField | bonding-app/src/app/components/token-trader/StatusMessage.tsx:46 | the link is the text after the first "Docs: ", up to the first newline or further "Docs: " |
| StatusMessage.DocsHref | bonding-app/src/app/components/token-trader/StatusMessage.tsx:43-46 | no link exactly without "Docs:"; the render throws exactly when "Docs:" occurs but "Docs: " does not; otherwise the link is the text after the first "Docs: " up to the next newline or "Docs: " |
| StatusMessage.DocsHrefUnique | bonding-app/src/app/components/token-trader/StatusMessage.tsx:46 | at most one text satisfies the link conditions, so they describe the link completely |
| StatusMessage.View | bonding-app/src/app/components/token-trader/StatusMessage.tsx:14-60 | hidden exactly for idle status or an error status that carries no error; pending and success show their message; failure shows the formatted reason and the docs link |
| StatusMessage.ViewIgnoresAction | bonding-app/src/app/components/token-trader/StatusMessage.tsx:14-60 | the banner never depends on the status's action |
| BuyButton.NeedsApprovalExactly | bonding-app/src/app/components/token-trader/BuyButton.tsx:35-39 | approval is needed exactly when a quantity is typed, the cost is a known non-zero value, the allowance is known, and the cost exceeds the allowance |
| BuyButton.NeedsApproval | bonding-app/src/app/components/token-trader/BuyButton.tsx:35-39 | approval is needed only with a typed quantity and a known cost above a known allowance; BuyButton.NeedsApprovalExactly gives the converse |
| BuyButton.ApproveAmount | bonding-app/src/app/components/token-trader/BuyButton.tsx:32 | the amount handed to the approval is the cost's decimal text (0 when unknown), and `BigInt` reads it back as that cost |
| BuyButton.HookBindingsAsWritten | bonding-app/src/app/components/token-trader/BuyButton.tsx:22-32 | the approve hook returns `approveTokens` rather than `approveToken`, and neither write hook returns `isSuccess` |
| BuyButton.HandleBuy | bonding-app/src/app/components/token-trader/BuyButton.tsx:103-120 | an empty quantity does nothing; otherwise a pending status, then either exactly one submission or an error whose action follows `needsApproval` and whose failure is "approveToken is not a function", the parse error, or the wallet's throw; an approval can submit only the maximal reserve approval |
| BuyButton.CoveredOrUnquotedBuysDirectly | bonding-app/src/app/components/token-trader/BuyButton.tsx:35-39 | with no cost quote, or a cost the allowance covers, the click goes straight to `buy` |
| BuyButton.ApprovalClickFailsAsWritten | bonding-app/src/app/components/token-trader/BuyButton.tsx:29 | as written, an approval click submits nothing and ends in "approveToken is not a function" |
| BuyButton.OnApprovalConfirmed | bonding-app/src/app/components/token-trader/BuyButton.tsx:41-58 | after approval confirms, the buy is submitted only if a quantity is typed and only after the status says "Buying tokens..." |
| BuyButton.LabelNamesTheClick | bonding-app/src/app/components/token-trader/BuyButton.tsx:125-131 | on an enabled button, "Approve ONE" appears exactly when the click approves and "Buy" exactly when it buys; a pending buy or approval disables the button and shows "Approving ONE..." or "Buying..." |
| BuyButton.Disabled | bonding-app/src/app/components/token-trader/BuyButton.tsx:125 | definition of `disabled`; its relation to the click is stated by BuyButton.LabelNamesTheClick |
| BuyButton.Label | bonding-app/src/app/components/token-trader/BuyButton.tsx:128-131 | the label takes precedence in the order approving, buying, "Approve ONE" when approval is needed, then `Buy <symbol>` |
| BuyButton.LabelText | bonding-app/src/app/components/token-trader/BuyButton.tsx:128-131 | definition of the label texts; BuyButton.LabelNamesTheClick states the approving text |
| BuyButton.OnBuyConfirmed | bonding-app/src/app/components/token-trader/BuyButton.tsx:60-91 | once the buy confirms, nothing is submitted, the status ends at "Transaction successful!" for a buy, and the last step clears the quantity |
| SellButton.UnparsableQuantity | bonding-app/src/app/components/token-trader/SellButton.tsx:34-37 | text that `BigInt` rejects can never be sold, and it crashes the render unless the allowance is missing or zero |
| SellButton.NeedsTokenApproval | bonding-app/src/app/components/token-trader/SellButton.tsx:34-37 | the render throws exactly for typed text `BigInt` rejects under a positive allowance; approval is needed exactly when the `BigInt` value exceeds a positive allowance |
| SellButton.Renders | bonding-app/src/app/components/token-trader/SellButton.tsx:34-37 | definition: `needsTokenApproval` does not throw; its consequences are stated by SellButton.UnparsableQuantity |
| SellButton.CanSell | bonding-app/src/app/components/token-trader/SellButton.tsx:75-83 | a sale is allowed exactly for a typed quantity whose `BigInt` value is at most a known positive balance |
| SellButton.HandleSell | bonding-app/src/app/components/token-trader/SellButton.tsx:111-136 | nothing happens unless `canSell`; at most one submission, which is the token approval of the raw quantity or the matching `sell` call; when nothing is submitted the last effect is an error carrying the wallet's throw, the refund error or the parse error, with the action `needsTokenApproval` selects |
| SellButton.ClickOrder | bonding-app/src/app/components/token-trader/SellButton.tsx:114-128 | approval is tried before the refund check; a missing or zero refund gives the "Unable to calculate refund amount" error; otherwise "Selling tokens..." precedes the `sell` submission |
| SellButton.NoApprovalWithoutPositiveAllowance | bonding-app/src/app/components/token-trader/SellButton.tsx:34-37 | with a missing or zero token allowance, the click never asks for approval |
| SellButton.ApprovalComparesRawQuantity | bonding-app/src/app/components/token-trader/SellButton.tsx:36 | for a whole-number quantity, approval is requested exactly when the unscaled quantity exceeds the allowance |
| SellButton.OversellDoesNothing | bonding-app/src/app/components/token-trader/SellButton.tsx:75-83 | a quantity above the balance makes the click do nothing |
| SellButton.GuardAndSubmissionDifferInUnits | bonding-app/src/app/components/token-trader/SellButton.tsx:75-83 | the guard compares the raw quantity with the balance, but the single submission sells the quantity times 10^18 |
| SellButton.OnApprovalConfirmed | bonding-app/src/app/components/token-trader/SellButton.tsx:39-56 | after a token approval confirms, the sell is submitted only if a quantity is typed and only after "Selling tokens..." |
| SellButton.OnSellConfirmed | bonding-app/src/app/components/token-trader/SellButton.tsx:58-99 | once the sell confirms, nothing is submitted, the status ends at "Transaction successful!" for a sell, and the last step clears the quantity |
| SellButton.HookBindingsAsWritten | bonding-app/src/app/components/token-trader/SellButton.tsx:28-32 | `useSellToken` returns `sellTokens` and `isPending` but no `isSuccess`, so `isSellSuccess` is never set |
| SellButton.ButtonMatchesGuard | bonding-app/src/app/components/token-trader/SellButton.tsx:138-148 | a pending sell or token approval disables the button, the only guard against a second submission; with nothing in flight, the button is disabled exactly when a click would do nothing; the "Insufficient balance" label appears exactly for a typed quantity that cannot be sold, and it shows that quantity |
| SellButton.Disabled | bonding-app/src/app/components/token-trader/SellButton.tsx:141 | definition of `disabled`; SellButton.ButtonMatchesGuard states that a pending write disables it and that otherwise it is disabled exactly when a click does nothing |
| SellButton.Label | bonding-app/src/app/components/token-trader/SellButton.tsx:144-148 | the label takes precedence in the order approving, selling, "Approve" when approval is needed, "Insufficient balance" for a typed quantity that cannot be sold, then `Sell <symbol>`; the insufficient-balance label shows the balance's decimal text (0 when unknown) and the typed quantity |
| SellButton.LabelText | bonding-app/src/app/components/token-trader/SellButton.tsx:144-148 | definition of the label texts; no contract of its own |
| Trader.Initial | bonding-app/src/app/components/token-trader/TokenTrader.tsx:16-18 | the trader starts with an empty quantity and the status `{ type: 'idle', action: 'buy' }`, which shows no banner |
| Trader.Apply | bonding-app/src/app/components/token-trader/TokenTrader.tsx:86-97 | definition: only status and quantity effects change the shared session; stated over runs by Trader.RunLeavesLastStatus |
| Trader.Run | bonding-app/src/app/components/token-trader/TokenTrader.tsx:86-97 | definition: effects applied in order; its contract is stated by Trader.RunConcat and Trader.RunLeavesLastStatus |
| Trader.RunConcat | bonding-app/src/app/components/token-trader/TokenTrader.tsx:86-97 | running two effect sequences in turn is the same as running their concatenation |
| Trader.RunLeavesLastStatus | bonding-app/src/app/components/token-trader/TokenTrader.tsx:18 | after a run, the session's status is the last status that was set |
| Trader.ButtonsShareOneStatus | bonding-app/src/app/components/token-trader/TokenTrader.tsx:86-97 | both buttons write one status: whichever sets it last wins |
| Trader.TimerArmed | bonding-app/src/app/components/token-trader/TokenTrader.tsx:24-32 | definition: only a success status arms the reset timer; used by Trader.TimerExpires |
| Trader.TimerExpires | bonding-app/src/app/components/token-trader/TokenTrader.tsx:24-32 | a success status resets the session to its start when the timer fires; no other status is touched |
| Trader.OnlySuccessIsTransient | bonding-app/src/app/components/token-trader/TokenTrader.tsx:24-32 | only a success status is ever reset: pending and error statuses persist, and the reset is idempotent |
| Trader.FinishTwiceIsFinishOnce | bonding-app/src/app/components/token-trader/BuyButton.tsx:70-87 | the duplicated success steps of the two confirmation effects have the same result as one |
| Trader.ConfirmedTradeEndsAtStart | bonding-app/src/app/components/token-trader/BuyButton.tsx:60-91 | a confirmed trade ends with "Transaction successful!" and an empty quantity, and the timer then returns the session to its start |
| Trader.BuyAndSellConfirmationsReset | bonding-app/src/app/components/token-trader/SellButton.tsx:58-99 | after either confirmation, the status carries that trade's action and the timer restores the start |
| Trader.ApprovedBuySubmitsApprovalThenBuy | bonding-app/src/app/components/token-trader/BuyButton.tsx:41-58 | if the approve function were bound, an approval click followed by its confirmation would submit the reserve approval and then the buy, in that order |
| Trader.ApprovedSellSubmitsApprovalThenSell | bonding-app/src/app/components/token-trader/SellButton.tsx:39-56 | a sell that needs approval submits the token approval and then, after confirmation, the sell |
| Trader.ApprovalRaceCanEndInApprovalSuccess | bonding-app/src/app/components/token-trader/BuyButton.tsx:93-101 | when the approval-success effect finishes last, the banner says "Approval successful!" and the timer resets the session even though a buy was submitted |
| Trader.CostDisplay | bonding-app/src/app/components/token-trader/TokenTrader.tsx:78 | the displayed cost is the decimal text of the cost (0 when unknown), and it reads back as the same number |
| LegacyTrader.NeedsApprovalInEtherUnits | bonding-app/src/app/components/TokenTrader.tsx:61-70 | approval is needed exactly when a whole-number amount times 10^18 exceeds the known allowance; empty or unparsable text never needs it |
| LegacyTrader.NeedsApproval | bonding-app/src/app/components/TokenTrader.tsx:61-70 | definition of `needsApproval`; its contract is stated by LegacyTrader.NeedsApprovalInEtherUnits |
| LegacyTrader.UnguardedWrite | bonding-app/src/app/components/TokenTrader.tsx:41-49 | a handler without `try` either submits the call or lets the exception escape |
| LegacyTrader.HandleBuy | bonding-app/src/app/components/TokenTrader.tsx:41-44 | an empty amount does nothing; otherwise the handler submits the `buy` call exactly when it exists and the wallet does not throw |
| LegacyTrader.HandleSell | bonding-app/src/app/components/TokenTrader.tsx:46-49 | an empty amount does nothing; otherwise the handler submits the `sell` call exactly when it exists and the wallet does not throw |
| LegacyTrader.HandleApprove | bonding-app/src/app/components/TokenTrader.tsx:51-55 | an empty amount does nothing; otherwise exactly one reserve approval is submitted and then the allowance refetched, or, when the wallet throws, nothing is submitted and the throw escapes the handler |
| LegacyTrader.View | bonding-app/src/app/components/TokenTrader.tsx:57-101 | the loading text shows exactly while a read is loading; otherwise only the approve button shows exactly when approval is needed; each button is disabled exactly while its own write is pending or nothing is typed |
| LegacyTrader.DebugEffectThrowsOnExponent | bonding-app/src/app/components/TokenTrader.tsx:32-39 | exponent text such as "1e5", which a number input accepts, makes the debug effect's unguarded `parseEther` throw |
| LegacyTrader.EmptyAmountOffersNothing | bonding-app/src/app/components/TokenTrader.tsx:88-101 | with nothing typed, every offered button is disabled, every handler is a no-op, and approval is never offered |

## Left out

- The React scheduler is not modelled. An effect is a sequence of steps; between two `await`s, an interleaving is chosen by a flag.
- The timer's 3-second delay is not modelled; only its firing is.
- `useBalanceUpdate` is reduced to one `TriggerUpdate` effect. Its implementation is not part of this model.
- `useGetCost`, `useGetRefund`, `useApproveToken` and `useTokenAllowance` are not defined in `useToken.ts`. The last two are commented out there at lines 82-95 and 106-113. The values they would produce are inputs, and a token approval is recorded only by its token and raw quantity.
- `writeContract` reports its errors through the hook's state, which the buttons do not read. The model keeps only a synchronous throw, as an input.
- Wallet, RPC and viem error wording is not modelled; a failure carries a free-form message. The `parseEther` error keeps only its short message, without the version and detail lines viem appends.
- Numbers.ParseEther: amounts with more than 18 significant fraction digits are treated as unparsable. viem rounds them using floating point instead.
- Numbers.ParseBigInt: JavaScript's `BigInt` also trims surrounding whitespace and accepts `0x`/`0o`/`0b` prefixes. The model rejects both.
- Presentation is not modelled: `formatEther`, the balance and value lines, CSS classes, icons and the close button.
- `BuyButton.OnBuyConfirmed`, `SellButton.OnSellConfirmed` and both `OnApprovalConfirmed`s model effects keyed on an `isSuccess` flag that no hook returns. They describe what would happen if the flag were set.
- The legacy component's debug effect (lines 32-39 of `components/TokenTrader.tsx`) is not modelled beyond LegacyTrader.DebugEffectThrowsOnExponent. Its unguarded `parseEther` throws on text such as `1e5`, which the number input accepts, and a throw in an effect unmounts the component. That crash is not modelled: LegacyTrader.View keeps describing the buttons for such an amount.
- The legacy component's error paragraphs (lines 103-105) show `error.message` verbatim and are not modelled.
- Parallel trading keyed by instrument is not in the program, which has one shared quantity and one shared status. It is not modelled.
- Invalidating a quote when the typed quantity changes is done by the data hooks and is not modelled; the cost and refund are whatever the hooks return.

=== FILE: buy_button.dfy ===
/**
 * `token-trader/BuyButton.tsx`: whether a buy needs a reserve-token
 * approval first, what a click does, what the two confirmation effects do,
 * and the button's state.
 */
module BuyButton {
  import opened Optional
  import opened Numbers
  import opened Calls
  import opened Types
  import opened Effects

  const ApprovingOne: string := "Approving ONE..."
  const BuyingTokens: string := "Buying tokens..."

  /** What one render of the button reads. */
  datatype BuyView = BuyView(
    quantity: string,          // the shared quantity text
    cost: Option<nat>,         // useGetCost: the reserve cost of `quantity`, if quoted
    allowance: Option<nat>,    // the reserve allowance granted to the bonding curve, if read
    isBuying: bool,            // the buy write is pending
    isApproving: bool)         // the approval write is pending

  /** `needsApproval`. */
  predicate NeedsApproval(quantity: string, cost: Option<nat>, allowance: Option<nat>)
    ensures NeedsApproval(quantity, cost, allowance) ==>
              quantity != "" && cost.Some? && allowance.Some? && cost.value > allowance.value
  {
    if quantity == "" || cost.None? || cost.value == 0 || allowance.None? then false
    else cost.value > allowance.value
  }

  /**
   * Approval is needed exactly when a quantity is typed and both the quote and
   * the allowance are known with the quote above the allowance; the
   * zero-cost test adds nothing, as a zero cost never exceeds an allowance.
   */
  lemma NeedsApprovalExactly(quantity: string, cost: Option<nat>, allowance: Option<nat>)
    ensures NeedsApproval(quantity, cost, allowance) <==>
              quantity != "" && cost.Some? && allowance.Some? && cost.value > allowance.value
  {
  }

  /** `cost?.toString() || '0'`, the amount handed to `useApproveReserveToken`. */
  function ApproveAmount(cost: Option<nat>): (r: string)
    ensures ParseBigInt(r) == Some(cost.GetOr(0))
  {
    match cost
    case Some(c) => ParseBigIntOfNatToString(c); NatToString(c)
    case None => "0"
  }

  /**
   * Whether `approveToken`, as destructured at line 29, names a function of
   * the object `useApproveReserveToken` returns.
   */
  function ApproveTokenBound(): bool {
    "approveToken" in ApproveReserveHookFields
  }

  /**
   * The hook returns `approveTokens`, not `approveToken`, and neither write hook
   * returns `isSuccess`: as the hooks stand, calling `approveToken()` throws,
   * and `isApproveSuccess` and `isBuySuccess` are always `undefined`, so the
   * effects keyed on them never run.
   */
  lemma HookBindingsAsWritten()
    ensures !ApproveTokenBound()
    ensures "approveTokens" in ApproveReserveHookFields
    ensures "isPending" in ApproveReserveHookFields && "isPending" in BuyHookFields
    ensures "isSuccess" !in ApproveReserveHookFields && "isSuccess" !in BuyHookFields
  {
  }

  /**
   * `handleBuy`. `approveBound` says whether `approveToken` is a function;
   * `fault` is the failure the wallet call throws, if any.
   */
  function HandleBuy(d: Deployment, token: Token, v: BuyView, approveBound: bool, fault: Option<Failure>): (r: seq<Effect>)
    ensures v.quantity == "" ==> r == []
    ensures v.quantity != "" ==> |r| == 2
    ensures |Submissions(r)| <= 1
    ensures v.quantity != "" && NeedsApproval(v.quantity, v.cost, v.allowance) ==>
              && r[0] == SetStatus(PendingStatus(ApprovingOne, Approve))
              && (forall x :: x in Submissions(r) ==> x == Write(ApproveReserveCall(d, ApproveAmount(v.cost))))
              && (Submissions(r) != [] <==> approveBound && fault.None?)
    ensures v.quantity != "" && !NeedsApproval(v.quantity, v.cost, v.allowance) ==>
              && r[0] == SetStatus(PendingStatus(BuyingTokens, Buy))
              && (Submissions(r) != [] <==> BuyCall(d, token.address, v.quantity).Some? && fault.None?)
              && (forall x :: x in Submissions(r) ==> x == Write(BuyCall(d, token.address, v.quantity).value))
    ensures forall i :: 0 <= i < |r| && r[i].SetStatus? && r[i].status.kind == Error ==>
              r[i].status.action == if NeedsApproval(v.quantity, v.cost, v.allowance) then Approve else Buy
    ensures v.quantity != "" && Submissions(r) == [] && NeedsApproval(v.quantity, v.cost, v.allowance) ==>
              r[1] == SetStatus(ErrorStatus(if approveBound then fault.value else NotAFunction("approveToken"), Approve))
    ensures v.quantity != "" && Submissions(r) == [] && !NeedsApproval(v.quantity, v.cost, v.allowance) ==>
              r[1] == SetStatus(ErrorStatus(
                        if BuyCall(d, token.address, v.quantity).None? then InvalidDecimal(v.quantity) else fault.value, Buy))
  {
    if v.quantity == "" then []
    else if NeedsApproval(v.quantity, v.cost, v.allowance) then
      var attempt :=
        if approveBound then
          AttemptWrite(Some(ApproveReserveCall(d, ApproveAmount(v.cost))), NotAFunction("approveToken"), fault, Approve)
        else
          [SetStatus(ErrorStatus(NotAFunction("approveToken"), Approve))];
      SubmissionsOfConcat([SetStatus(PendingStatus(ApprovingOne, Approve))], attempt);
      [SetStatus(PendingStatus(ApprovingOne, Approve))] + attempt
    else
      var attempt := AttemptWrite(BuyCall(d, token.address, v.quantity), InvalidDecimal(v.quantity), fault, Buy);
      SubmissionsOfConcat([SetStatus(PendingStatus(BuyingTokens, Buy))], attempt);
      [SetStatus(PendingStatus(BuyingTokens, Buy))] + attempt
  }

  /**
   * With the allowance known to cover the quote, or no quote at all, a click
   * goes straight to the buy: no approval is requested, and there is no local
   * balance check.
   */
  lemma CoveredOrUnquotedBuysDirectly(d: Deployment, token: Token, v: BuyView, approveBound: bool, fault: Option<Failure>)
    requires v.quantity != ""
    requires v.cost.None? || (v.allowance.Some? && v.cost.value <= v.allowance.value)
    ensures HandleBuy(d, token, v, approveBound, fault)[0] == SetStatus(PendingStatus(BuyingTokens, Buy))
    ensures forall x :: x in Submissions(HandleBuy(d, token, v, approveBound, fault)) ==> x.call.functionName == "buy"
  {
  }

  /** As the hooks are written, a click that needs approval submits nothing and ends in a TypeError. */
  lemma ApprovalClickFailsAsWritten(d: Deployment, token: Token, v: BuyView, fault: Option<Failure>)
    requires v.quantity != "" && NeedsApproval(v.quantity, v.cost, v.allowance)
    ensures Submissions(HandleBuy(d, token, v, ApproveTokenBound(), fault)) == []
    ensures HandleBuy(d, token, v, ApproveTokenBound(), fault)[1] == SetStatus(ErrorStatus(NotAFunction("approveToken"), Approve))
  {
  }

  /** The effects at lines 41-58 and 93-101 once `isApproveSuccess` is true, for the quantity of that render. */
  function OnApprovalConfirmed(d: Deployment, token: Token, quantity: string, fault: Option<Failure>, resumeFirst: bool): (r: seq<Effect>)
    ensures quantity == "" ==> Submissions(r) == []
    ensures quantity != "" ==>
              Submissions(r) == if BuyCall(d, token.address, quantity).Some? && fault.None?
                                then [Write(BuyCall(d, token.address, quantity).value)] else []
    ensures forall i :: 0 <= i < |r| && r[i].Submit? ==> SetStatus(PendingStatus(BuyingTokens, Buy)) in r[..i]
  {
    var pending := SetStatus(PendingStatus(BuyingTokens, Buy));
    var attempt := AttemptWrite(BuyCall(d, token.address, quantity), InvalidDecimal(quantity), fault, Buy);
    SubmissionsOfConcat([pending], attempt);
    var r := AfterApproval(ReserveAllowance, quantity, [pending] + attempt, resumeFirst);
    assert forall i :: 0 <= i < |r| && r[i].Submit? ==> pending in r[..i] by {
      var refetch := Refetch(ReserveAllowance);
      var announce := SetStatus(SuccessStatus(ApprovalSuccessful, Approve));
      if quantity == "" {
        assert r == [refetch, announce];
      } else if resumeFirst {
        assert r == [refetch, refetch, pending, attempt[0], announce];
        assert r[..3][2] == pending;
      } else {
        assert r == [refetch, refetch, announce, pending, attempt[0]];
        assert r[..4][3] == pending;
      }
    }
    r
  }

  /** The effects at lines 60-75 and 77-91 once `isBuySuccess` is true. */
  function OnBuyConfirmed(): (r: seq<Effect>)
    ensures Submissions(r) == []
    ensures LastStatus(r, IdleBuy) == SuccessStatus(TransactionSuccessful, Buy)
    ensures r[|r| - 1] == SetQuantity("")
  {
    AfterTrade(Buy, ReserveAllowance)
  }

  /** `disabled={isBuying || isApproving || !quantity}`. */
  predicate Disabled(v: BuyView) {
    v.isBuying || v.isApproving || v.quantity == ""
  }

  datatype BuyLabel = ApprovingLabel | BuyingLabel | ApproveLabel | BuySymbolLabel

  /** The label choice: approving, then buying, then needs approval, then `Buy <symbol>`. */
  function Label(v: BuyView): (r: BuyLabel)
    ensures v.isApproving ==> r == ApprovingLabel
    ensures !v.isApproving && v.isBuying ==> r == BuyingLabel
    ensures !v.isApproving && !v.isBuying ==>
              (r == ApproveLabel <==> NeedsApproval(v.quantity, v.cost, v.allowance))
    ensures r == BuySymbolLabel <==>
              !v.isApproving && !v.isBuying && !NeedsApproval(v.quantity, v.cost, v.allowance)
  {
    if v.isApproving then ApprovingLabel
    else if v.isBuying then BuyingLabel
    else if NeedsApproval(v.quantity, v.cost, v.allowance) then ApproveLabel
    else BuySymbolLabel
  }

  function LabelText(choice: BuyLabel, symbol: string): string {
    match choice
    case ApprovingLabel => ApprovingOne
    case BuyingLabel => "Buying..."
    case ApproveLabel => "Approve ONE"
    case BuySymbolLabel => "Buy " + symbol
  }

  /**
   * An enabled button says what a click does: "Approve ONE" exactly when the
   * click starts an approval, `Buy <symbol>` exactly when it starts a buy.
   * While a write is pending the button is disabled and shows its progress.
   */
  lemma LabelNamesTheClick(d: Deployment, token: Token, v: BuyView, approveBound: bool, fault: Option<Failure>)
    ensures !Disabled(v) ==>
              && (Label(v) == ApproveLabel <==>
                    HandleBuy(d, token, v, approveBound, fault)[0] == SetStatus(PendingStatus(ApprovingOne, Approve)))
              && (Label(v) == BuySymbolLabel <==>
                    HandleBuy(d, token, v, approveBound, fault)[0] == SetStatus(PendingStatus(BuyingTokens, Buy)))
    ensures Label(v) == ApprovingLabel || Label(v) == BuyingLabel ==> Disabled(v)
    ensures Label(v) == ApprovingLabel ==> LabelText(Label(v), token.symbol) == ApprovingOne
    ensures v.isApproving || v.isBuying ==> Disabled(v)
    ensures v.isApproving ==> LabelText(Label(v), token.symbol) == ApprovingOne
    ensures !v.isApproving && v.isBuying ==> LabelText(Label(v), token.symbol) == "Buying..."
  {
  }
}

=== FILE: calls.dfy ===
/**
 * The contract calls built by the hooks in `web3/hooks/useToken.ts`: which
 * contract each write or read targets, its function name and its arguments.
 */
module Calls {
  import opened Optional
  import opened Numbers

  /** An on-chain address, opaque to the front end. */
  datatype Address = Address(id: string)

  /** The bonding-curve and reserve-token addresses taken from the deployment configuration. */
  datatype Deployment = Deployment(bondingCurve: Address, reserveToken: Address)

  /** A call argument; `Undefined` is a JavaScript `undefined` placed in the argument list. */
  datatype Arg = AddressArg(address: Address) | UintArg(amount: int) | Undefined

  datatype WriteCall = WriteCall(contract: Address, functionName: string, args: seq<Arg>)

  /** A read; `args == None` means the hook passes no argument list at all. */
  datatype ReadCall = ReadCall(contract: Address, functionName: string, args: Option<seq<Arg>>)

  /** `amount || '0'`. */
  function OrZero(amount: string): (r: string)
    ensures r != ""
    ensures amount != "" ==> r == amount
  {
    if amount == "" then "0" else amount
  }

  /** The `[tokenAddress, parseEther(amount || '0')]` write shared by buy and sell; `None` when `parseEther` throws. */
  function TradeCall(d: Deployment, name: string, token: Address, amount: string): (r: Option<WriteCall>)
    ensures r.Some? <==> ParseEther(OrZero(amount)).Some?
    ensures r.Some? ==> && r.value.contract == d.bondingCurve
                        && r.value.functionName == name
                        && r.value.args == [AddressArg(token), UintArg(ParseEther(OrZero(amount)).value)]
  {
    match ParseEther(OrZero(amount))
    case Some(wei) => Some(WriteCall(d.bondingCurve, name, [AddressArg(token), UintArg(wei)]))
    case None => None
  }

  /** `buyTokens()` of `useBuyToken(tokenAddress, amount)`. */
  function BuyCall(d: Deployment, token: Address, amount: string): (r: Option<WriteCall>)
    ensures r.Some? <==> ParseEther(OrZero(amount)).Some?
    ensures r.Some? ==> && r.value.contract == d.bondingCurve && r.value.functionName == "buy"
                        && r.value.args == [AddressArg(token), UintArg(ParseEther(OrZero(amount)).value)]
    ensures amount == "" ==> r == Some(WriteCall(d.bondingCurve, "buy", [AddressArg(token), UintArg(0)]))
  {
    TradeCall(d, "buy", token, amount)
  }

  /** `sellTokens()` of `useSellToken(tokenAddress, amount)`. */
  function SellCall(d: Deployment, token: Address, amount: string): (r: Option<WriteCall>)
    ensures r.Some? <==> ParseEther(OrZero(amount)).Some?
    ensures r.Some? ==> && r.value.contract == d.bondingCurve && r.value.functionName == "sell"
                        && r.value.args == [AddressArg(token), UintArg(ParseEther(OrZero(amount)).value)]
    ensures amount == "" ==> r == Some(WriteCall(d.bondingCurve, "sell", [AddressArg(token), UintArg(0)]))
  {
    TradeCall(d, "sell", token, amount)
  }

  /** Buy and sell send the same arguments to the same contract and differ only in the function called. */
  lemma BuyAndSellDifferOnlyInName(d: Deployment, token: Address, amount: string)
    ensures BuyCall(d, token, amount).Some? <==> SellCall(d, token, amount).Some?
    ensures BuyCall(d, token, amount).Some? ==>
              SellCall(d, token, amount).value == BuyCall(d, token, amount).value.(functionName := "sell")
  {
  }

  /** A whole number typed as digits is submitted as that many ether: 10^18 times its integer value. */
  lemma TradeAmountIsScaled(d: Deployment, token: Address, amount: string)
    requires |amount| > 0 && AllDigits(amount)
    ensures BuyCall(d, token, amount).Some?
    ensures BuyCall(d, token, amount).value.args[1] == UintArg(ParseBigInt(amount).value * Ether)
  {
    EtherScalesInteger(amount);
  }

  /**
   * A decimal amount `w.f` with at most 18 fraction digits is submitted as
   * `w` ether plus `f` read as the leading digits of the 18 decimals:
   * "1.5" buys 1_500_000_000_000_000_000 base units.
   */
  lemma {:induction false} TradeAmountOfDecimal(d: Deployment, token: Address, w: string, f: string)
    requires AllDigits(w) && AllDigits(f) && |f| <= 18
    ensures BuyCall(d, token, w + "." + f).Some?
    ensures BuyCall(d, token, w + "." + f).value.args[1] == UintArg(DigitsValue(w) * Ether + DigitsValue(f) * Pow10(18 - |f|))
  {
    var s := w + "." + f;
    var wei := DigitsValue(w) * Ether + DigitsValue(f) * Pow10(18 - |f|);
    assert ParseEther(s) == Some(wei) by { EtherOfDecimal(w, f); }
    assert OrZero(s) == s;
  }

  /** `approveTokens()` of `useApproveReserveToken(amount)`. */
  function ApproveReserveCall(d: Deployment, amount: string): (r: WriteCall)
    ensures r.contract == d.reserveToken && r.functionName == "approve"
    ensures r.args == [AddressArg(d.bondingCurve), UintArg(Pow2(256) - 1)]
  {
    MaxUint256IsLargestWord();
    WriteCall(d.reserveToken, "approve", [AddressArg(d.bondingCurve), UintArg(MaxUint256)])
  }

  /** The approval requested does not depend on the amount the hook was given. */
  lemma ApprovalIgnoresAmount(d: Deployment, a: string, b: string)
    ensures ApproveReserveCall(d, a) == ApproveReserveCall(d, b)
  {
  }

  /** The connected account as a call argument (`undefined` when no wallet is connected). */
  function AccountArg(account: Option<Address>): Arg {
    match account
    case Some(a) => AddressArg(a)
    case None => Undefined
  }

  /** `useReserveTokenBalance(address)`. */
  function ReserveBalanceRead(d: Deployment, account: Option<Address>): (r: ReadCall)
    ensures r.contract == d.reserveToken
    ensures r.functionName == "balanceOf" && r.args == Some([AccountArg(account)])
  {
    ReadCall(d.reserveToken, "balanceOf", Some([AccountArg(account)]))
  }

  /** `useTokenBalance(tokenAddress, address)`. */
  function TokenBalanceRead(token: Address, account: Option<Address>): (r: ReadCall)
    ensures r.contract == token
    ensures r.functionName == "balanceOf" && r.args == Some([AccountArg(account)])
  {
    ReadCall(token, "balanceOf", Some([AccountArg(account)]))
  }

  /** The two balance reads ask the same question of different contracts: the token's own, and the reserve's. */
  lemma BalanceReadsDifferOnlyInContract(d: Deployment, token: Address, account: Option<Address>)
    ensures TokenBalanceRead(token, account).contract == token
    ensures ReserveBalanceRead(d, account).contract == d.reserveToken
    ensures ReserveBalanceRead(d, account) == TokenBalanceRead(token, account).(contract := d.reserveToken)
  {
  }

  /** `useReserveTokenAllowance(address)`: `allowance(owner, bondingCurve)` on the reserve, no arguments without an account. */
  function ReserveAllowanceRead(d: Deployment, account: Option<Address>): (r: ReadCall)
    ensures r.contract == d.reserveToken && r.functionName == "allowance"
    ensures r.args.Some? <==> account.Some?
    ensures account.Some? ==> r.args == Some([AddressArg(account.value), AddressArg(d.bondingCurve)])
  {
    match account
    case Some(owner) => ReadCall(d.reserveToken, "allowance", Some([AddressArg(owner), AddressArg(d.bondingCurve)]))
    case None => ReadCall(d.reserveToken, "allowance", None)
  }

  /** The keys of the object a write hook returns: `{ hash, isPending, <trigger>, isError, error }`. */
  function WriteHookFields(trigger: string): set<string> {
    {"hash", "isPending", trigger, "isError", "error"}
  }

  const BuyHookFields: set<string> := WriteHookFields("buyTokens")
  const SellHookFields: set<string> := WriteHookFields("sellTokens")
  const ApproveReserveHookFields: set<string> := WriteHookFields("approveTokens")
}

=== FILE: effects.dfy ===
/**
 * What the trade components do, as data: every handler and effect hook of
 * the buy and sell buttons is modelled as the sequence of effects it has,
 * in the order it has them. The session of `token-trader/TokenTrader.tsx`
 * applies them.
 */
module Effects {
  import opened Optional
  import opened Calls
  import opened Types

  /** A cached ledger figure that can be refetched. */
  datatype Field = TokenBalance | ReserveBalance | ReserveAllowance | TokenAllowance

  /**
   * A transaction handed to the wallet: a write built by `useToken.ts`, or the
   * token approval of `useApproveToken`, a hook whose body is not part of this model.
   */
  datatype Submission = Write(call: WriteCall) | TokenApproval(token: Address, amount: string)

  /** One observable step of a handler, in the order it happens. */
  datatype Effect =
    | SetStatus(status: TradeStatus)      // onStatusChange(...)
    | SetQuantity(quantity: string)       // onQuantityChange(...)
    | Submit(submission: Submission)      // a write handed to the wallet
    | Refetch(field: Field)               // refetch...() of a cached read
    | TriggerUpdate                       // useBalanceUpdate's triggerUpdate()
    | Raise(failure: Failure)             // an exception escapes the handler

  /** The transactions submitted by `effects`, in order. */
  function Submissions(effects: seq<Effect>): (r: seq<Submission>)
    ensures |r| <= |effects|
    ensures forall x :: x in r <==> Submit(x) in effects
  {
    if effects == [] then []
    else
      var rest := Submissions(effects[1..]);
      assert forall e :: e in effects <==> e == effects[0] || e in effects[1..];
      match effects[0]
      case Submit(x) => [x] + rest
      case _ => rest
  }

  lemma NoSubmitNoSubmissions(effects: seq<Effect>)
    requires forall i :: 0 <= i < |effects| ==> !effects[i].Submit?
    ensures Submissions(effects) == []
  {
  }

  lemma {:induction false} SubmissionsOfConcat(a: seq<Effect>, b: seq<Effect>)
    ensures Submissions(a + b) == Submissions(a) + Submissions(b)
  {
    if a == [] {
      assert a + b == b;
    } else {
      assert (a + b)[1..] == a[1..] + b;
      SubmissionsOfConcat(a[1..], b);
    }
  }

  /** `effects` sets no status. */
  predicate SetsNoStatus(effects: seq<Effect>) {
    forall i :: 0 <= i < |effects| ==> !effects[i].SetStatus?
  }

  /** `effects[i]` is the last status change in `effects`. */
  ghost predicate LastSetAt(effects: seq<Effect>, i: int) {
    && 0 <= i < |effects|
    && effects[i].SetStatus?
    && forall j :: i < j < |effects| ==> !effects[j].SetStatus?
  }

  /** The status left by `effects` on a display that showed `current`: the last one set wins. */
  function LastStatus(effects: seq<Effect>, current: TradeStatus): (r: TradeStatus)
    ensures SetsNoStatus(effects) ==> r == current
    ensures !SetsNoStatus(effects) ==> exists i :: LastSetAt(effects, i) && effects[i].status == r
  {
    if effects == [] then current
    else
      var n := |effects| - 1;
      if effects[n].SetStatus? then
        assert LastSetAt(effects, n);
        effects[n].status
      else
        var front := effects[..n];
        var r := LastStatus(front, current);
        assert SetsNoStatus(front) ==> SetsNoStatus(effects);
        assert forall i :: LastSetAt(front, i) ==> LastSetAt(effects, i);
        r
  }

  /**
   * Calling a write (`buyTokens()`, `sellTokens()`, `approveTokens()`) inside a
   * `try`: `None` for `call` means building the call threw `parseError`, and
   * `fault` is the failure the wallet call itself threw, if any. A throw
   * becomes an error status tagged with `errorAction`.
   */
  function AttemptWrite(call: Option<WriteCall>, parseError: Failure, fault: Option<Failure>, errorAction: Action): (r: seq<Effect>)
    ensures |r| == 1
    ensures r[0].Submit? <==> call.Some? && fault.None?
    ensures r[0].Submit? ==> r[0] == Submit(Write(call.value))
    ensures !r[0].Submit? ==> r[0] == SetStatus(ErrorStatus(if call.None? then parseError else fault.value, errorAction))
  {
    match call
    case None => [SetStatus(ErrorStatus(parseError, errorAction))]
    case Some(c) => if fault.Some? then [SetStatus(ErrorStatus(fault.value, errorAction))] else [Submit(Write(c))]
  }

  const UpdatingBalances: string := "Updating balances..."
  const TransactionSuccessful: string := "Transaction successful!"
  const ApprovalSuccessful: string := "Approval successful!"

  /**
   * The two effect hooks that fire when an approval confirms. One refetches
   * the allowance and, when the quantity is non-empty, runs `resume` (the same
   * trade, with the quantity of that render); the other refetches the
   * allowance and announces the approval. Both start their refetch at once;
   * `resumeFirst` says which continuation the event loop runs first.
   */
  function AfterApproval(allowance: Field, quantity: string, resume: seq<Effect>, resumeFirst: bool): (r: seq<Effect>)
    ensures quantity == "" ==> Submissions(r) == []
    ensures quantity != "" ==> Submissions(r) == Submissions(resume)
    ensures |r| > 0 && r[0] == Refetch(allowance)
  {
    var announce := [SetStatus(SuccessStatus(ApprovalSuccessful, Approve))];
    if quantity == "" then
      assert Submissions(announce) == [];
      SubmissionsOfConcat([Refetch(allowance)], announce);
      [Refetch(allowance)] + announce
    else
      var refetches := [Refetch(allowance), Refetch(allowance)];
      var tail := if resumeFirst then resume + announce else announce + resume;
      assert Submissions(announce) == [];
      assert Submissions(refetches) == [];
      SubmissionsOfConcat(resume, announce);
      SubmissionsOfConcat(announce, resume);
      SubmissionsOfConcat(refetches, tail);
      refetches + tail
  }

  /** What each of the two trade-confirmed effect hooks does once its refetches have returned. */
  function Finish(action: Action): (r: seq<Effect>)
    ensures Submissions(r) == []
    ensures LastStatus(r, IdleBuy) == SuccessStatus(TransactionSuccessful, action)
    ensures r[|r| - 1] == SetQuantity("")
  {
    [SetStatus(SuccessStatus(TransactionSuccessful, action)), SetQuantity("")]
  }

  /**
   * The two effect hooks that fire when a trade confirms. Each sets
   * "Updating balances...", refetches the token balance, the reserve balance
   * and `allowance` (the first also triggers the balance updater), waits for
   * all of them, then sets success and clears the quantity. Both
   * continuations are the same, so their order does not matter.
   */
  function AfterTrade(action: Action, allowance: Field): (r: seq<Effect>)
    ensures Submissions(r) == []
    ensures forall i :: 0 <= i < |r| && r[i].SetStatus? && r[i].status.kind == Success ==>
              && Refetch(TokenBalance) in r[..i]
              && Refetch(ReserveBalance) in r[..i]
              && Refetch(allowance) in r[..i]
    ensures LastStatus(r, IdleBuy) == SuccessStatus(TransactionSuccessful, action)
    ensures r[|r| - 1] == SetQuantity("")
  {
    var updating := SetStatus(PendingStatus(UpdatingBalances, action));
    var start := [updating, Refetch(TokenBalance), Refetch(ReserveBalance), Refetch(allowance), TriggerUpdate,
                  updating, Refetch(TokenBalance), Refetch(ReserveBalance), Refetch(allowance)];
    var r := start + Finish(action) + Finish(action);
    NoSubmitNoSubmissions(r);
    assert r[|r| - 2].SetStatus? && LastSetAt(r, |r| - 2);
    assert forall i :: 0 <= i < |start| ==> r[i] == start[i] && !(r[i].SetStatus? && r[i].status.kind == Success);
    assert forall i :: |start| <= i < |r| ==> r[..i][1] == Refetch(TokenBalance) && r[..i][2] == Refetch(ReserveBalance) && r[..i][3] == Refetch(allowance);
    r
  }
}

=== FILE: legacy_trader.dfy ===
/**
 * The older `components/TokenTrader.tsx`: one component with its own amount,
 * an ether-scaled approval test, three unguarded handlers, a loading gate,
 * and a choice between an approve button and a buy/sell pair.
 */
module LegacyTrader {
  import opened Optional
  import opened Numbers
  import opened Calls
  import opened Types
  import opened Effects

  /**
   * `needsApproval`: the amount read by `parseEther` against the reserve
   * allowance; a parse failure is caught and reads as "no approval".
   */
  predicate NeedsApproval(amount: string, allowance: Option<nat>) {
    if amount == "" || allowance.None? then false
    else
      match ParseEther(amount)
      case Some(wei) => wei > allowance.value
      case None => false
  }

  /**
   * For an amount typed as whole digits, approval is needed exactly when the
   * amount in ether units, `n * 10^18`, exceeds the allowance; text
   * `parseEther` rejects never asks for approval.
   */
  lemma NeedsApprovalInEtherUnits(amount: string, allowance: Option<nat>)
    ensures amount == "" || allowance.None? ==> !NeedsApproval(amount, allowance)
    ensures |amount| > 0 && AllDigits(amount) && allowance.Some? ==>
              (NeedsApproval(amount, allowance) <==> DigitsValue(amount) * Ether > allowance.value)
    ensures ParseEther(amount).None? ==> !NeedsApproval(amount, allowance)
  {
  }

  /**
   * A write called from a handler with no `try`: a throw, from `parseEther`
   * or from the wallet call, escapes the handler.
   */
  function UnguardedWrite(call: Option<WriteCall>, parseError: Failure, fault: Option<Failure>): (r: seq<Effect>)
    ensures |r| == 1
    ensures r[0].Submit? <==> call.Some? && fault.None?
    ensures r[0].Submit? ==> r[0] == Submit(Write(call.value))
    ensures !r[0].Submit? ==> r[0].Raise?
  {
    match call
    case None => [Raise(parseError)]
    case Some(c) => if fault.Some? then [Raise(fault.value)] else [Submit(Write(c))]
  }

  /** `handleBuy`. */
  function HandleBuy(d: Deployment, token: Address, amount: string, fault: Option<Failure>): (r: seq<Effect>)
    ensures amount == "" ==> r == []
    ensures amount != "" ==> |r| == 1 && (r[0].Submit? <==> BuyCall(d, token, amount).Some? && fault.None?)
    ensures forall i :: 0 <= i < |r| && r[i].Submit? ==> r[i].submission == Write(BuyCall(d, token, amount).value)
  {
    if amount == "" then [] else UnguardedWrite(BuyCall(d, token, amount), InvalidDecimal(amount), fault)
  }

  /** `handleSell`. */
  function HandleSell(d: Deployment, token: Address, amount: string, fault: Option<Failure>): (r: seq<Effect>)
    ensures amount == "" ==> r == []
    ensures amount != "" ==> |r| == 1 && (r[0].Submit? <==> SellCall(d, token, amount).Some? && fault.None?)
    ensures forall i :: 0 <= i < |r| && r[i].Submit? ==> r[i].submission == Write(SellCall(d, token, amount).value)
  {
    if amount == "" then [] else UnguardedWrite(SellCall(d, token, amount), InvalidDecimal(amount), fault)
  }

  /**
   * `handleApprove`: `await approveTokens()` then `refetchAllowance()`. A throw
   * rejects the handler's promise before the refetch.
   */
  function HandleApprove(d: Deployment, amount: string, fault: Option<Failure>): (r: seq<Effect>)
    ensures amount == "" ==> r == []
    ensures forall i :: 0 <= i < |r| && r[i] == Refetch(ReserveAllowance) ==>
              exists j :: 0 <= j < i && r[j] == Submit(Write(ApproveReserveCall(d, amount)))
    ensures amount != "" && fault.None? ==> Refetch(ReserveAllowance) in r
    ensures fault.Some? ==> Refetch(ReserveAllowance) !in r
    ensures Submissions(r) == (if amount != "" && fault.None? then [Write(ApproveReserveCall(d, amount))] else [])
    ensures amount != "" && fault.Some? ==> r == [Raise(fault.value)]
  {
    if amount == "" then []
    else if fault.Some? then [Raise(fault.value)]
    else
      var r := [Submit(Write(ApproveReserveCall(d, amount))), Refetch(ReserveAllowance)];
      assert r[1] == Refetch(ReserveAllowance) && r[0] == Submit(Write(ApproveReserveCall(d, amount)));
      r
  }

  /**
   * The debug effect (lines 32-39) calls `parseEther` outside any `try` whenever
   * an amount is typed. A number input can hold exponent text such as "1e5",
   * which `parseEther` rejects, so that effect throws.
   */
  lemma DebugEffectThrowsOnExponent()
    ensures ParseEther("1e5").None?
  {
    assert "1e5"[1] == 'e';
  }

  /** What the component reads during a render. */
  datatype LegacyState = LegacyState(
    amount: string,
    allowance: Option<nat>,
    balanceLoading: bool,
    allowanceLoading: bool,
    reserveBalanceLoading: bool,
    isBuying: bool,
    isSelling: bool,
    isApproving: bool)

  /** What the component shows: the loading text, the approve button, or the buy and sell buttons. */
  datatype Screen =
    | Loading
    | ApproveOnly(approveDisabled: bool)
    | BuyAndSell(buyDisabled: bool, sellDisabled: bool)

  function View(st: LegacyState): (r: Screen)
    ensures r.Loading? <==> st.balanceLoading || st.allowanceLoading || st.reserveBalanceLoading
    ensures !r.Loading? ==> (r.ApproveOnly? <==> NeedsApproval(st.amount, st.allowance))
    ensures r.ApproveOnly? ==> r.approveDisabled == (st.isApproving || st.amount == "")
    ensures r.BuyAndSell? ==> && r.buyDisabled == (st.isBuying || st.amount == "")
                              && r.sellDisabled == (st.isSelling || st.amount == "")
  {
    if st.balanceLoading || st.allowanceLoading || st.reserveBalanceLoading then Loading
    else if NeedsApproval(st.amount, st.allowance) then ApproveOnly(st.isApproving || st.amount == "")
    else BuyAndSell(st.isBuying || st.amount == "", st.isSelling || st.amount == "")
  }

  /**
   * With nothing typed, no button that is offered can be pressed, and the
   * handlers behind them would do nothing anyway; and nothing typed never
   * calls for approval.
   */
  lemma EmptyAmountOffersNothing(d: Deployment, token: Address, st: LegacyState, fault: Option<Failure>)
    requires st.amount == ""
    ensures View(st).ApproveOnly? ==> View(st).approveDisabled
    ensures View(st).BuyAndSell? ==> View(st).buyDisabled && View(st).sellDisabled
    ensures !View(st).ApproveOnly?
    ensures HandleBuy(d, token, st.amount, fault) == []
    ensures HandleSell(d, token, st.amount, fault) == []
    ensures HandleApprove(d, st.amount, fault) == []
  {
  }
}

=== FILE: numbers.dfy ===
/**
 * The integer conversions the components apply to the quantity text and to
 * ledger values: JavaScript's `BigInt(text)`, viem's `parseEther(text)` and
 * the decimal `toString()` of a non-negative bigint.
 */
module Numbers {
  import opened Optional
  import Text

  predicate IsDigit(c: char) {
    '0' <= c <= '9'
  }

  predicate AllDigits(s: string) {
    forall i :: 0 <= i < |s| ==> IsDigit(s[i])
  }

  function DigitValue(c: char): nat
    requires IsDigit(c)
  {
    c as int - '0' as int
  }

  function DigitChar(d: nat): (c: char)
    requires d < 10
    ensures IsDigit(c) && DigitValue(c) == d
  {
    ('0' as int + d) as char
  }

  /** The value of a string of decimal digits; the empty string is 0. */
  function DigitsValue(s: string): nat
    requires AllDigits(s)
  {
    if s == [] then 0 else DigitsValue(s[..|s| - 1]) * 10 + DigitValue(s[|s| - 1])
  }

  /** `n.toString()` for a non-negative bigint: canonical decimal, no leading zero. */
  function NatToString(n: nat): (r: string)
    ensures |r| > 0 && AllDigits(r)
    ensures r[0] == '0' ==> r == "0"
  {
    if n < 10 then [DigitChar(n)] else NatToString(n / 10) + [DigitChar(n % 10)]
  }

  /** Reading back the decimal text of `n` gives `n`. */
  lemma {:induction false} DigitsOfNatToString(n: nat)
    ensures DigitsValue(NatToString(n)) == n
  {
    if n >= 10 {
      var s := NatToString(n);
      assert s[..|s| - 1] == NatToString(n / 10);
      DigitsOfNatToString(n / 10);
    }
  }

  function Pow10(k: nat): (r: nat)
    ensures r >= 1
  {
    if k == 0 then 1 else 10 * Pow10(k - 1)
  }

  lemma {:induction false} Pow10Add(a: nat, b: nat)
    ensures Pow10(a + b) == Pow10(a) * Pow10(b)
  {
    if a > 0 {
      Pow10Add(a - 1, b);
      assert Pow10(a + b) == 10 * Pow10(a - 1 + b);
    }
  }

  /** One ether in wei: `parseEther` scales by 10^18. */
  const Ether: nat := 1_000_000_000_000_000_000

  lemma EtherIsPow10()
    ensures Ether == Pow10(18)
  {
    assert Pow10(3) == 1000;
    assert Pow10(6) == 1000 * Pow10(3) by { assert Pow10(6) == 10 * 10 * 10 * Pow10(3); }
    assert Pow10(9) == 1000 * Pow10(6) by { assert Pow10(9) == 10 * 10 * 10 * Pow10(6); }
    assert Pow10(12) == 1000 * Pow10(9) by { assert Pow10(12) == 10 * 10 * 10 * Pow10(9); }
    assert Pow10(15) == 1000 * Pow10(12) by { assert Pow10(15) == 10 * 10 * 10 * Pow10(12); }
    assert Pow10(18) == 1000 * Pow10(15) by { assert Pow10(18) == 10 * 10 * 10 * Pow10(15); }
  }

  /** viem's `maxUint256`, 2^256 - 1. */
  const MaxUint256: nat := 0xffff_ffff_ffff_ffff_ffff_ffff_ffff_ffff_ffff_ffff_ffff_ffff_ffff_ffff_ffff_ffff

  function Pow2(k: nat): (r: nat)
    ensures r >= 1
  {
    if k == 0 then 1 else 2 * Pow2(k - 1)
  }

  lemma {:induction false} Pow2Add(a: nat, b: nat)
    ensures Pow2(a + b) == Pow2(a) * Pow2(b)
  {
    if a > 0 {
      Pow2Add(a - 1, b);
    }
  }

  /** The approval ceiling is the largest unsigned 256-bit integer. */
  lemma MaxUint256IsLargestWord()
    ensures MaxUint256 == Pow2(256) - 1
  {
    assert Pow2(8) == 256;
    Pow2Add(8, 8);
    var p16 := Pow2(16);
    assert p16 == 0x1_0000;
    Pow2Add(16, 16);
    var p32 := Pow2(32);
    assert p32 == 0x1_0000_0000;
    Pow2Add(32, 32);
    var p64 := Pow2(64);
    assert p64 == 0x1_0000_0000_0000_0000;
    Pow2Add(64, 64);
    var p128 := Pow2(128);
    assert p128 == 0x1_0000_0000_0000_0000_0000_0000_0000_0000;
    Pow2Add(128, 128);
    assert Pow2(256) == 0x1_0000_0000_0000_0000_0000_0000_0000_0000_0000_0000_0000_0000_0000_0000_0000_0000;
  }

  /** The text `BigInt(text)` accepts: empty, or an optional sign and at least one decimal digit. */
  predicate IsIntegerLiteral(s: string) {
    || s == ""
    || (|s| > 0 && AllDigits(s))
    || (|s| > 1 && (s[0] == '-' || s[0] == '+') && AllDigits(s[1..]))
  }

  /** `BigInt(text)`; `None` when it throws a SyntaxError. */
  function ParseBigInt(s: string): (r: Option<int>)
    ensures r.Some? <==> IsIntegerLiteral(s)
    ensures AllDigits(s) ==> r == Some(DigitsValue(s))
    ensures r.Some? && |s| > 0 && s[0] == '-' ==> r.value <= 0
    ensures |s| > 1 && s[0] == '-' && AllDigits(s[1..]) ==> r == Some(-(DigitsValue(s[1..]) as int))
    ensures |s| > 1 && s[0] == '+' && AllDigits(s[1..]) ==> r == Some(DigitsValue(s[1..]))
  {
    if s == "" then Some(0)
    else if s[0] == '-' || s[0] == '+' then
      var tail := s[1..];
      if tail != "" && AllDigits(tail) then
        Some(if s[0] == '-' then -(DigitsValue(tail) as int) else DigitsValue(tail))
      else None
    else if AllDigits(s) then Some(DigitsValue(s))
    else None
  }

  /** `BigInt(n.toString()) == n`. */
  lemma ParseBigIntOfNatToString(n: nat)
    ensures ParseBigInt(NatToString(n)) == Some(n)
  {
    DigitsOfNatToString(n);
  }

  /** `s` without its trailing `'0'` characters. */
  function DropTrailingZeros(s: string): (r: string)
    ensures |r| <= |s| && r == s[..|r|]
    ensures forall i :: |r| <= i < |s| ==> s[i] == '0'
    ensures |r| > 0 ==> r[|r| - 1] != '0'
  {
    if s != [] && s[|s| - 1] == '0' then DropTrailingZeros(s[..|s| - 1]) else s
  }

  /** Appending zeros multiplies the value by ten per zero: dropping them divides it back. */
  lemma {:induction false} DigitsOfTrailingZeros(s: string)
    requires AllDigits(s)
    ensures DigitsValue(s) == DigitsValue(DropTrailingZeros(s)) * Pow10(|s| - |DropTrailingZeros(s)|)
  {
    if s != [] && s[|s| - 1] == '0' {
      var init := s[..|s| - 1];
      DigitsOfTrailingZeros(init);
      assert DropTrailingZeros(s) == DropTrailingZeros(init);
      var kept := DropTrailingZeros(init);
      assert DigitsValue(s) == DigitsValue(init) * 10;
      assert Pow10(|s| - |kept|) == 10 * Pow10(|init| - |kept|);
    }
  }

  /**
   * The unsigned text `parseEther` accepts: decimal digits and at most one
   * `.`, either part possibly empty (`[0-9]*\.?[0-9]*`).
   */
  predicate IsDecimalText(s: string) {
    && (forall i :: 0 <= i < |s| ==> IsDigit(s[i]) || s[i] == '.')
    && (forall i, j :: 0 <= i < j < |s| && s[i] == '.' ==> s[j] != '.')
  }

  /** The text after the first `.`, or nothing when there is none. */
  function FractionOf(s: string): string {
    if s == [] then [] else if s[0] == '.' then s[1..] else FractionOf(s[1..])
  }

  /** Digits around a single `.` form decimal text. */
  lemma DigitsAroundPoint(s: string, k: nat)
    requires k < |s| && s[k] == '.' && AllDigits(s[..k]) && AllDigits(s[k + 1..])
    ensures IsDecimalText(s)
  {
    forall i | 0 <= i < |s|
      ensures IsDigit(s[i]) || s[i] == '.'
      ensures i != k ==> IsDigit(s[i])
    {
      if i < k { assert s[i] == s[..k][i]; }
      else if i > k { assert s[i] == s[k + 1..][i - k - 1]; }
    }
  }

  /** `parseEther` of text without a sign. */
  function ParseUnsignedEther(s: string): (r: Option<nat>)
    ensures AllDigits(s) ==> r == Some(DigitsValue(s) * Ether)
  {
    match Text.IndexOf(s, ".", 0)
    case None =>
      if AllDigits(s) then Some(DigitsValue(s) * Ether) else None
    case Some(k) =>
      assert Text.OccursAt(s, k, ".") && s[k] == s[k..k + 1][0];
      var whole := s[..k];
      var fraction := s[k + 1..];
      if AllDigits(whole) && AllDigits(fraction) then
        ScaleDecimal(whole, fraction)
      else None
  }

  /** `whole.fraction` in wei; `None` when the fraction keeps more than 18 digits. */
  function ScaleDecimal(whole: string, fraction: string): Option<nat>
    requires AllDigits(whole) && AllDigits(fraction)
  {
    var kept := DropTrailingZeros(fraction);
    if |kept| <= 18 then Some(DigitsValue(whole) * Ether + DigitsValue(kept) * Pow10(18 - |kept|))
    else None
  }

  /**
   * `parseEther(text)`: decimal text with an optional leading `-` and at most
   * one `.`, scaled by 10^18; `None` when it throws.
   */
  function ParseEther(s: string): (r: Option<int>)
    ensures AllDigits(s) ==> r == Some(DigitsValue(s) * Ether)
    ensures |s| > 0 && s[0] == '-' ==> (r.Some? <==> ParseUnsignedEther(s[1..]).Some?)
    ensures |s| > 0 && s[0] == '-' && r.Some? ==> r.value == -(ParseUnsignedEther(s[1..]).value as int)
  {
    if |s| > 0 && s[0] == '-' then
      match ParseUnsignedEther(s[1..])
      case None => None
      case Some(v) => Some(-(v as int))
    else ParseUnsignedEther(s)
  }

  /**
   * For a whole number typed as plain digits, `parseEther` is `BigInt` scaled by 10^18:
   * the same text denotes two amounts that differ by that factor.
   */
  lemma EtherScalesInteger(s: string)
    requires |s| > 0 && AllDigits(s)
    ensures ParseBigInt(s).Some? && ParseEther(s).Some?
    ensures ParseEther(s).value == ParseBigInt(s).value * Ether
  {
  }

  lemma FractionOfDigits(s: string)
    requires AllDigits(s)
    ensures FractionOf(s) == []
  {
    if s != [] {
      FractionOfDigits(s[1..]);
    }
  }

  lemma FractionOfParts(w: string, f: string)
    requires AllDigits(w)
    ensures FractionOf(w + "." + f) == f
  {
    if w == [] {
      assert (w + "." + f)[1..] == f;
    } else {
      assert (w + "." + f)[1..] == w[1..] + "." + f;
      FractionOfParts(w[1..], f);
    }
  }

  /** The first `.` of `w.f` is the one after `w`. */
  lemma PointOfParts(w: string, f: string)
    requires AllDigits(w)
    ensures Text.IndexOf(w + "." + f, ".", 0) == Some(|w|)
  {
    var s := w + "." + f;
    assert s[|w|..|w| + 1] == ".";
    assert Text.OccursAt(s, |w|, ".");
    forall k: nat | k < |w|
      ensures !Text.OccursAt(s, k, ".")
    {
      assert s[k..k + 1][0] == s[k] == w[k];
    }
  }

  /** So the unsigned reading splits `w.f` into `w` and `f`. */
  lemma UnsignedEtherOfParts(w: string, f: string)
    requires AllDigits(w) && AllDigits(f)
    ensures ParseUnsignedEther(w + "." + f) == ScaleDecimal(w, f)
  {
    var s := w + "." + f;
    PointOfParts(w, f);
    assert s[..|w|] == w;
    assert s[|w| + 1..] == f;
  }

  /** `w.f` has no sign, so `parseEther` reads it unsigned and splits it at its point. */
  lemma EtherOfParts(w: string, f: string)
    requires AllDigits(w) && AllDigits(f)
    ensures ParseEther(w + "." + f) == ScaleDecimal(w, f)
  {
    assert (w + "." + f)[0] != '-' by { if |w| > 0 { assert (w + "." + f)[0] == w[0]; } }
    UnsignedEtherOfParts(w, f);
  }

  /** Dropping trailing zeros leaves digits with nothing more to drop. */
  lemma DropTrailingZerosCanonical(f: string)
    requires AllDigits(f)
    ensures AllDigits(DropTrailingZeros(f))
    ensures DropTrailingZeros(DropTrailingZeros(f)) == DropTrailingZeros(f)
  {
    var kept := DropTrailingZeros(f);
    assert kept == f[..|kept|];
  }

  lemma RegroupProduct(x: nat, a: nat, b: nat, c: nat, d: nat)
    requires x == a * b && d == b * c
    ensures x * c == a * d
  {
    calc {
      x * c;
      (a * b) * c;
      a * (b * c);
      a * d;
    }
  }

  /** The scaled fraction does not depend on trailing zeros. */
  lemma ScaledFraction(f: string)
    requires AllDigits(f) && |f| <= 18
    ensures DigitsValue(f) * Pow10(18 - |f|) == DigitsValue(DropTrailingZeros(f)) * Pow10(18 - |DropTrailingZeros(f)|)
  {
    var kept := DropTrailingZeros(f);
    DigitsOfTrailingZeros(f);
    Pow10Add(|f| - |kept|, 18 - |f|);
    assert |f| - |kept| + (18 - |f|) == 18 - |kept|;
    RegroupProduct(DigitsValue(f), DigitsValue(kept), Pow10(|f| - |kept|), Pow10(18 - |f|), Pow10(18 - |kept|));
  }

  lemma ScaleDecimalAccepts(w: string, f: string)
    requires AllDigits(w) && AllDigits(f)
    ensures ScaleDecimal(w, f).Some? <==> |DropTrailingZeros(f)| <= 18
  {
  }

  lemma ScaleDecimalValue(w: string, f: string)
    requires AllDigits(w) && AllDigits(f) && |f| <= 18
    ensures ScaleDecimal(w, f) == Some(DigitsValue(w) * Ether + DigitsValue(f) * Pow10(18 - |f|))
  {
    ScaledFraction(f);
  }

  lemma ScaleDecimalTrailingZeros(w: string, f: string)
    requires AllDigits(w) && AllDigits(f)
    ensures AllDigits(DropTrailingZeros(f))
    ensures ScaleDecimal(w, f) == ScaleDecimal(w, DropTrailingZeros(f))
  {
    DropTrailingZerosCanonical(f);
  }

  /**
   * `parseEther` of `w.f`: rejected exactly when `f` keeps more than 18 digits
   * once its trailing zeros are dropped; otherwise `w` ether plus `f` read as
   * the leading digits of the 18 decimals. Trailing zeros never change the result.
   */
  lemma {:induction false} EtherOfDecimal(w: string, f: string)
    requires AllDigits(w) && AllDigits(f)
    ensures ParseEther(w + "." + f).Some? <==> |DropTrailingZeros(f)| <= 18
    ensures |f| <= 18 ==> ParseEther(w + "." + f) == Some(DigitsValue(w) * Ether + DigitsValue(f) * Pow10(18 - |f|))
    ensures ParseEther(w + "." + f) == ParseEther(w + "." + DropTrailingZeros(f))
  {
    EtherOfParts(w, f);
    ScaleDecimalAccepts(w, f);
    ScaleDecimalTrailingZeros(w, f);
    EtherOfParts(w, DropTrailingZeros(f));
    if |f| <= 18 {
      ScaleDecimalValue(w, f);
    }
  }

  /** The same value in one unit: the whole part fills 18 decimals, the fraction its leading ones. */
  lemma {:induction false} DecimalInPowersOfTen(w: string, f: string)
    requires AllDigits(w) && AllDigits(f) && |f| <= 18
    ensures ParseEther(w + "." + f) == Some(DigitsValue(w) * Pow10(18) + DigitsValue(f) * Pow10(18 - |f|))
  {
    var e := Pow10(18);
    assert e == Ether by { EtherIsPow10(); }
    EtherOfDecimal(w, f);
  }

  /** In decimal text, the digits before and after a `.` are all the text has. */
  lemma SplitAtPoint(u: string, k: nat)
    requires IsDecimalText(u) && k < |u| && u[k] == '.'
    ensures AllDigits(u[..k]) && AllDigits(u[k + 1..])
    ensures u == u[..k] + "." + u[k + 1..]
  {
    forall i | 0 <= i < k
      ensures IsDigit(u[..k][i])
    {
      assert u[..k][i] == u[i];
    }
    var f := u[k + 1..];
    forall i | 0 <= i < |f|
      ensures IsDigit(f[i])
    {
      assert f[i] == u[k + 1 + i];
    }
  }

  lemma UnsignedEtherAccepts(u: string)
    ensures ParseUnsignedEther(u).Some? <==> IsDecimalText(u) && |DropTrailingZeros(FractionOf(u))| <= 18
  {
    if AllDigits(u) {
      FractionOfDigits(u);
    } else if !IsDecimalText(u) {
      if ParseUnsignedEther(u).Some? {
        var k := Text.IndexOf(u, ".", 0).value;
        assert Text.OccursAt(u, k, ".") && u[k] == u[k..k + 1][0];
        DigitsAroundPoint(u, k);
        assert false;
      }
    } else {
      var k :| 0 <= k < |u| && u[k] == '.';
      SplitAtPoint(u, k);
      FractionOfParts(u[..k], u[k + 1..]);
      UnsignedEtherOfParts(u[..k], u[k + 1..]);
    }
  }

  /**
   * Which text `parseEther` accepts: after an optional `-`, decimal digits with
   * at most one `.`, whose fraction keeps at most 18 digits once trailing zeros
   * are dropped. Everything else throws.
   */
  lemma EtherAccepts(s: string)
    ensures var u := if |s| > 0 && s[0] == '-' then s[1..] else s;
            ParseEther(s).Some? <==> IsDecimalText(u) && |DropTrailingZeros(FractionOf(u))| <= 18
  {
    var u := if |s| > 0 && s[0] == '-' then s[1..] else s;
    UnsignedEtherAccepts(u);
  }
}

=== FILE: optional.dfy ===
/** A value that may be missing: an unanswered remote read, a string that does not parse. */
module Optional {

  datatype Option<+T> = None | Some(value: T) {

    /** The value, or `default` when there is none. */
    function GetOr(default: T): T {
      if Some? then value else default
    }
  }
}

=== FILE: sell_button.dfy ===
/**
 * `token-trader/SellButton.tsx`: the local balance guard, whether a sell
 * needs a token approval first, what a click does, the two confirmation
 * effects, and the button's state.
 */
module SellButton {
  import opened Optional
  import opened Numbers
  import opened Calls
  import opened Types
  import opened Effects

  const SellingTokens: string := "Selling tokens..."
  const NoRefund: string := "Unable to calculate refund amount"

  function ApprovingSymbol(symbol: string): string {
    "Approving " + symbol + "..."
  }

  /**
   * What one render of the button reads. The allowance, approval and refund
   * come from hooks (`useTokenAllowance`, `useApproveToken`, `useGetRefund`)
   * whose bodies are not part of this model, so they are plain inputs here.
   */
  datatype SellView = SellView(
    quantity: string,             // the shared quantity text
    tokenAllowance: Option<nat>,  // the token allowance granted to the bonding curve, if read
    tokenBalance: Option<nat>,    // the token balance, if read
    refund: Option<nat>,          // useGetRefund: the reserve refund for `quantity`, if quoted
    isSelling: bool,              // the sell write is pending
    isApproving: bool)            // the token approval is pending

  /**
   * `needsTokenApproval`: compares `BigInt(quantity)` with the allowance.
   * `BigInt` is called outside any `try`, so `None` means the render throws.
   */
  function NeedsTokenApproval(quantity: string, allowance: Option<nat>): (r: Option<bool>)
    ensures r.None? <==> quantity != "" && allowance.Some? && allowance.value > 0 && ParseBigInt(quantity).None?
    ensures r == Some(true) <==>
              && quantity != "" && allowance.Some? && allowance.value > 0
              && ParseBigInt(quantity).Some? && ParseBigInt(quantity).value > allowance.value
  {
    if quantity == "" || allowance.None? || allowance.value == 0 then Some(false)
    else
      match ParseBigInt(quantity)
      case Some(n) => Some(n > allowance.value)
      case None => None
  }

  /** The render completes, so the button and its click handler exist. */
  predicate Renders(v: SellView) {
    NeedsTokenApproval(v.quantity, v.tokenAllowance).Some?
  }

  /** `canSell`: a parse failure is caught and reads as "cannot sell". */
  predicate CanSell(quantity: string, balance: Option<nat>)
    ensures CanSell(quantity, balance) <==>
              && quantity != "" && balance.Some? && balance.value > 0
              && ParseBigInt(quantity).Some? && ParseBigInt(quantity).value <= balance.value
  {
    if quantity == "" || balance.None? || balance.value == 0 then false
    else
      match ParseBigInt(quantity)
      case Some(n) => balance.value >= n
      case None => false
  }

  /**
   * A quantity `BigInt` rejects ("1.5", "1e3") breaks the render as soon as a
   * positive allowance is known, while with no allowance the button renders
   * and simply cannot sell.
   */
  lemma UnparsableQuantity(v: SellView)
    requires v.quantity != "" && ParseBigInt(v.quantity).None?
    ensures !CanSell(v.quantity, v.tokenBalance)
    ensures Renders(v) <==> v.tokenAllowance.None? || v.tokenAllowance.value == 0
  {
  }

  /**
   * `handleSell`, for a render that completed. `fault` is the failure the
   * wallet call (`approveToken()` or `sellTokens()`) throws, if any.
   */
  function HandleSell(d: Deployment, token: Token, v: SellView, fault: Option<Failure>): (r: seq<Effect>)
    requires Renders(v)
    ensures v.quantity == "" || !CanSell(v.quantity, v.tokenBalance) ==> r == []
    ensures |Submissions(r)| <= 1
    ensures forall x :: x in Submissions(r) && x.TokenApproval? ==> x == TokenApproval(token.address, v.quantity)
    ensures forall x :: x in Submissions(r) && x.Write? ==>
              SellCall(d, token.address, v.quantity) == Some(x.call)
    ensures forall i :: 0 <= i < |r| && r[i].SetStatus? && r[i].status.kind == Error ==>
              r[i].status.action == if NeedsTokenApproval(v.quantity, v.tokenAllowance).value then Approve else Sell
    ensures v.quantity != "" && CanSell(v.quantity, v.tokenBalance) && NeedsTokenApproval(v.quantity, v.tokenAllowance).value ==>
              (Submissions(r) != [] <==> fault.None?)
    ensures (&& v.quantity != "" && CanSell(v.quantity, v.tokenBalance)
             && !NeedsTokenApproval(v.quantity, v.tokenAllowance).value && v.refund.Some? && v.refund.value > 0) ==>
              (Submissions(r) != [] <==> SellCall(d, token.address, v.quantity).Some? && fault.None?)
    ensures v.quantity != "" && CanSell(v.quantity, v.tokenBalance) && Submissions(r) == [] ==>
              && |r| > 0
              && r[|r| - 1] == SetStatus(ErrorStatus(
                   if NeedsTokenApproval(v.quantity, v.tokenAllowance).value then fault.value
                   else if v.refund.None? || v.refund.value == 0 then Failure(NoRefund)
                   else if SellCall(d, token.address, v.quantity).None? then InvalidDecimal(v.quantity)
                   else fault.value,
                   if NeedsTokenApproval(v.quantity, v.tokenAllowance).value then Approve else Sell))
  {
    if v.quantity == "" || !CanSell(v.quantity, v.tokenBalance) then []
    else if NeedsTokenApproval(v.quantity, v.tokenAllowance).value then
      var pending := SetStatus(PendingStatus(ApprovingSymbol(token.symbol), Approve));
      var attempt :=
        if fault.Some? then SetStatus(ErrorStatus(fault.value, Approve))
        else Submit(TokenApproval(token.address, v.quantity));
      SubmissionsOfConcat([pending], [attempt]);
      [pending, attempt]
    else if v.refund.None? || v.refund.value == 0 then
      [SetStatus(ErrorStatus(Failure(NoRefund), Sell))]
    else
      var pending := SetStatus(PendingStatus(SellingTokens, Sell));
      var attempt := AttemptWrite(SellCall(d, token.address, v.quantity), InvalidDecimal(v.quantity), fault, Sell);
      SubmissionsOfConcat([pending], attempt);
      [pending] + attempt
  }

  /**
   * The order of the checks once the guard passes: approval first, then the
   * refund quote, then the sell. Without a refund quote the sell ends in an
   * error and nothing is submitted.
   */
  lemma ClickOrder(d: Deployment, token: Token, v: SellView, fault: Option<Failure>)
    requires Renders(v) && v.quantity != "" && CanSell(v.quantity, v.tokenBalance)
    ensures NeedsTokenApproval(v.quantity, v.tokenAllowance).value ==>
              HandleSell(d, token, v, fault) ==
                [ SetStatus(PendingStatus(ApprovingSymbol(token.symbol), Approve)),
                  if fault.Some? then SetStatus(ErrorStatus(fault.value, Approve))
                  else Submit(TokenApproval(token.address, v.quantity)) ]
    ensures !NeedsTokenApproval(v.quantity, v.tokenAllowance).value && (v.refund.None? || v.refund.value == 0) ==>
              HandleSell(d, token, v, fault) == [SetStatus(ErrorStatus(Failure(NoRefund), Sell))]
    ensures !NeedsTokenApproval(v.quantity, v.tokenAllowance).value && v.refund.Some? && v.refund.value > 0 ==>
              && HandleSell(d, token, v, fault)[0] == SetStatus(PendingStatus(SellingTokens, Sell))
              && (Submissions(HandleSell(d, token, v, fault)) != [] <==>
                    SellCall(d, token.address, v.quantity).Some? && fault.None?)
  {
  }

  /** A zero or unknown token allowance never leads to a token approval. */
  lemma NoApprovalWithoutPositiveAllowance(d: Deployment, token: Token, v: SellView, fault: Option<Failure>)
    requires v.tokenAllowance.None? || v.tokenAllowance.value == 0
    ensures Renders(v)
    ensures forall x :: x in Submissions(HandleSell(d, token, v, fault)) ==> !x.TokenApproval?
  {
  }

  /**
   * The approval check compares the raw quantity, not the refund quote, with
   * the allowance: for a quantity typed as digits and a positive allowance, a
   * click that passes the guard asks for approval exactly when the quantity
   * exceeds the allowance, whatever the refund.
   */
  lemma ApprovalComparesRawQuantity(d: Deployment, token: Token, v: SellView, fault: Option<Failure>)
    requires |v.quantity| > 0 && AllDigits(v.quantity)
    requires v.tokenAllowance.Some? && v.tokenAllowance.value > 0
    requires CanSell(v.quantity, v.tokenBalance)
    ensures Renders(v)
    ensures HandleSell(d, token, v, fault)[0] == SetStatus(PendingStatus(ApprovingSymbol(token.symbol), Approve))
            <==> DigitsValue(v.quantity) > v.tokenAllowance.value
  {
    if ApprovingSymbol(token.symbol) == SellingTokens {
      assert ApprovingSymbol(token.symbol)[0..9] == "Approving";
      assert SellingTokens[0..9] == "Selling t";
    }
  }

  /** Selling more than the known balance is refused locally: nothing happens and nothing is submitted. */
  lemma OversellDoesNothing(d: Deployment, token: Token, v: SellView, fault: Option<Failure>)
    requires Renders(v)
    requires |v.quantity| > 0 && AllDigits(v.quantity)
    requires v.tokenBalance.Some? && DigitsValue(v.quantity) > v.tokenBalance.value
    ensures HandleSell(d, token, v, fault) == []
  {
  }

  /**
   * The guard and the submission use different units: the guard checks that
   * the typed whole number `n` is at most the balance, but the sell submits
   * `parseEther` of the same text, `n * 10^18`.
   */
  lemma GuardAndSubmissionDifferInUnits(d: Deployment, token: Token, v: SellView)
    requires |v.quantity| > 0 && AllDigits(v.quantity)
    requires Renders(v) && CanSell(v.quantity, v.tokenBalance)
    requires !NeedsTokenApproval(v.quantity, v.tokenAllowance).value
    requires v.refund.Some? && v.refund.value > 0
    ensures DigitsValue(v.quantity) <= v.tokenBalance.value
    ensures |Submissions(HandleSell(d, token, v, None))| == 1
    ensures Submissions(HandleSell(d, token, v, None))[0].call.args[1] == UintArg(DigitsValue(v.quantity) * Ether)
  {
    TradeAmountIsScaled(d, token.address, v.quantity);
    BuyAndSellDifferOnlyInName(d, token.address, v.quantity);
    var s := Submissions(HandleSell(d, token, v, None));
    assert s[0] in s;
  }

  /** The effects at lines 39-56 and 101-109 once `isTokenApproveSuccess` is true, for the quantity of that render. */
  function OnApprovalConfirmed(d: Deployment, token: Token, quantity: string, fault: Option<Failure>, resumeFirst: bool): (r: seq<Effect>)
    ensures quantity == "" ==> Submissions(r) == []
    ensures quantity != "" ==>
              Submissions(r) == if SellCall(d, token.address, quantity).Some? && fault.None?
                                then [Write(SellCall(d, token.address, quantity).value)] else []
    ensures forall i :: 0 <= i < |r| && r[i].Submit? ==> SetStatus(PendingStatus(SellingTokens, Sell)) in r[..i]
  {
    var pending := SetStatus(PendingStatus(SellingTokens, Sell));
    var attempt := AttemptWrite(SellCall(d, token.address, quantity), InvalidDecimal(quantity), fault, Sell);
    SubmissionsOfConcat([pending], attempt);
    var r := AfterApproval(TokenAllowance, quantity, [pending] + attempt, resumeFirst);
    assert forall i :: 0 <= i < |r| && r[i].Submit? ==> pending in r[..i] by {
      var refetch := Refetch(TokenAllowance);
      var announce := SetStatus(SuccessStatus(ApprovalSuccessful, Approve));
      if quantity == "" {
        assert r == [refetch, announce];
      } else if resumeFirst {
        assert r == [refetch, refetch, pending, attempt[0], announce];
        assert r[..3][2] == pending;
      } else {
        assert r == [refetch, refetch, announce, pending, attempt[0]];
        assert r[..4][3] == pending;
      }
    }
    r
  }

  /** The effects at lines 58-73 and 85-99 once `isSellSuccess` is true. */
  function OnSellConfirmed(): (r: seq<Effect>)
    ensures Submissions(r) == []
    ensures LastStatus(r, IdleBuy) == SuccessStatus(TransactionSuccessful, Sell)
    ensures r[|r| - 1] == SetQuantity("")
  {
    AfterTrade(Sell, TokenAllowance)
  }

  /**
   * `useSellToken` returns `sellTokens` and `isPending` but no `isSuccess`:
   * `isSellSuccess` is always `undefined`, so the effects keyed on it never run.
   */
  lemma HookBindingsAsWritten()
    ensures "sellTokens" in SellHookFields && "isPending" in SellHookFields
    ensures "isSuccess" !in SellHookFields
  {
  }

  /** `disabled={isSelling || isTokenApproving || !quantity || !canSell}`. */
  predicate Disabled(v: SellView) {
    v.isSelling || v.isApproving || v.quantity == "" || !CanSell(v.quantity, v.tokenBalance)
  }

  datatype SellLabel =
    | ApprovingLabel
    | SellingLabel
    | ApproveLabel
    | InsufficientLabel(have: string, need: string)
    | SellSymbolLabel

  /** The label choice, for a render that completed. */
  function Label(v: SellView): (r: SellLabel)
    requires Renders(v)
    ensures v.isApproving ==> r == ApprovingLabel
    ensures !v.isApproving && v.isSelling ==> r == SellingLabel
    ensures !v.isApproving && !v.isSelling && NeedsTokenApproval(v.quantity, v.tokenAllowance).value ==>
              r == ApproveLabel
    ensures r.InsufficientLabel? ==> r.have == NatToString(v.tokenBalance.GetOr(0)) && r.need == v.quantity
    ensures r.InsufficientLabel? <==>
              && !v.isApproving && !v.isSelling && !NeedsTokenApproval(v.quantity, v.tokenAllowance).value
              && v.quantity != "" && !CanSell(v.quantity, v.tokenBalance)
    ensures r == SellSymbolLabel <==>
              && !v.isApproving && !v.isSelling && !NeedsTokenApproval(v.quantity, v.tokenAllowance).value
              && (v.quantity == "" || CanSell(v.quantity, v.tokenBalance))
  {
    if v.isApproving then ApprovingLabel
    else if v.isSelling then SellingLabel
    else if NeedsTokenApproval(v.quantity, v.tokenAllowance).value then ApproveLabel
    else if !CanSell(v.quantity, v.tokenBalance) && v.quantity != "" then
      // `tokenBalance?.toString() || 0`
      InsufficientLabel(NatToString(v.tokenBalance.GetOr(0)), v.quantity)
    else SellSymbolLabel
  }

  function LabelText(choice: SellLabel, symbol: string): string {
    match choice
    case ApprovingLabel => ApprovingSymbol(symbol)
    case SellingLabel => "Selling..."
    case ApproveLabel => "Approve " + symbol
    case InsufficientLabel(have, need) => "Insufficient balance (Have: " + have + ", Need: " + need + ")"
    case SellSymbolLabel => "Sell " + symbol
  }

  /**
   * The button is disabled exactly when the click guard would refuse, or a
   * write is pending; the insufficient-balance text appears only on a
   * disabled button with a typed quantity the guard refuses.
   */
  lemma ButtonMatchesGuard(d: Deployment, token: Token, v: SellView, fault: Option<Failure>)
    requires Renders(v)
    ensures !v.isSelling && !v.isApproving ==> (Disabled(v) <==> HandleSell(d, token, v, fault) == [])
    ensures v.isSelling || v.isApproving ==> Disabled(v)
    ensures Label(v).InsufficientLabel? ==>
              && Disabled(v) && v.quantity != "" && !CanSell(v.quantity, v.tokenBalance)
              && Label(v).need == v.quantity
    ensures (&& !v.isSelling && !v.isApproving && !NeedsTokenApproval(v.quantity, v.tokenAllowance).value
             && v.quantity != "" && !CanSell(v.quantity, v.tokenBalance)) ==> Label(v).InsufficientLabel?
  {
  }
}

=== FILE: status_message.dfy ===
/**
 * The status panel of `token-trader/StatusMessage.tsx`: which box a
 * `TradeStatus` shows, the error sanitiser `formatErrorMessage`, and the
 * documentation link pulled out of an error message.
 */
module StatusMessage {
  import opened Optional
  import opened Text
  import opened Types

  const Reverted: string := "reverted"
  const ReasonTag: string := "reason: "
  const ContractCall: string := "Contract Call"
  const DocsMarker: string := "Docs:"
  const DocsTag: string := "Docs: "

  /** The characters `.` does not match in a JavaScript regular expression. */
  predicate IsLineTerminator(c: char) {
    c == '\n' || c == '\r' || c as int == 0x2028 || c as int == 0x2029
  }

  /** The lookahead `(?=\n|Contract Call|$)` succeeds at index `j` of `rest`. */
  predicate IsStop(rest: string, j: nat) {
    j == |rest| || OccursAt(rest, j, "\n") || OccursAt(rest, j, ContractCall)
  }

  /** The capture `(.*?)` can run from `j` to `k`: no line terminator crossed, and the lookahead holds at `k`. */
  ghost predicate CanEndAt(rest: string, j: nat, k: nat) {
    && j <= k <= |rest|
    && IsStop(rest, k)
    && forall m :: j <= m < k ==> !IsLineTerminator(rest[m])
  }

  /** Where the lazy capture starting at `j` ends: the nearest end it can reach, if any. */
  function LazyEnd(rest: string, j: nat): (r: Option<nat>)
    requires j <= |rest|
    ensures r.Some? ==> CanEndAt(rest, j, r.value)
    ensures r.Some? ==> forall k: nat :: j <= k < r.value ==> !CanEndAt(rest, j, k)
    ensures r.None? ==> forall k: nat :: !CanEndAt(rest, j, k)
    decreases |rest| - j
  {
    if IsStop(rest, j) then Some(j)
    else if IsLineTerminator(rest[j]) then None
    else
      var r := LazyEnd(rest, j + 1);
      assert forall k: nat :: CanEndAt(rest, j, k) <==> k > j && CanEndAt(rest, j + 1, k);
      r
  }

  /** The text after index `i` of the message, where `reason: ` would end. */
  function AfterTag(s: string, i: nat): string
    requires OccursAt(s, i, ReasonTag)
  {
    s[i + |ReasonTag|..]
  }

  /** `/reason: (.*?)(?=\n|Contract Call|$)/` matches with its `reason: ` at index `i`. */
  predicate MatchesAt(s: string, i: nat) {
    OccursAt(s, i, ReasonTag) && LazyEnd(AfterTag(s, i), 0).Some?
  }

  /** Group 1 of the match at `i`. */
  function Capture(s: string, i: nat): (c: string)
    requires MatchesAt(s, i)
    ensures forall m :: 0 <= m < |c| ==> !IsLineTerminator(c[m])
  {
    var rest := AfterTag(s, i);
    rest[..LazyEnd(rest, 0).value]
  }

  /** The leftmost start, at or after `i`, at which the expression matches: `match` tries each start in turn. */
  function MatchStart(s: string, i: nat): (r: Option<nat>)
    ensures r.Some? ==> i <= r.value && MatchesAt(s, r.value)
    ensures r.Some? ==> forall k: nat :: i <= k < r.value ==> !MatchesAt(s, k)
    ensures r.None? ==> forall k: nat :: i <= k ==> !MatchesAt(s, k)
    decreases |s| - i
  {
    if i + |ReasonTag| > |s| then None
    else if MatchesAt(s, i) then Some(i)
    else MatchStart(s, i + 1)
  }

  /** `formatErrorMessage(error)` applied to `error.message`. */
  function FormatErrorMessage(message: string): (r: string)
    ensures !Contains(message, Reverted) ==> r == message
    ensures MatchStart(message, 0).None? ==> r == message
    ensures Contains(message, Reverted) && MatchStart(message, 0).Some? ==>
              && (forall m :: 0 <= m < |r| ==> !IsLineTerminator(r[m]))
              && (|r| > 0 ==> !IsSpace(r[0]) && !IsSpace(r[|r| - 1]))
  {
    if Contains(message, Reverted) then
      match MatchStart(message, 0)
      case Some(i) =>
        var c := Capture(message, i);
        var r := Trim(c);
        assert forall m :: 0 <= m < |r| ==> r[m] in c by {
          forall m | 0 <= m < |r| {
            TrimKeepsCharacters(c, r[m]);
          }
        }
        r
      case None => message
    else message
  }

  /** The first index at or after `j` where the lookahead holds. */
  function FirstStop(rest: string, j: nat): (k: nat)
    requires j <= |rest|
    ensures j <= k <= |rest| && IsStop(rest, k)
    ensures forall m: nat :: j <= m < k ==> !IsStop(rest, m)
    decreases |rest| - j
  {
    if IsStop(rest, j) then j else FirstStop(rest, j + 1)
  }

  /**
   * A reverted transaction's message is reduced to the trimmed text after its
   * first `reason: `, up to the earliest newline, `Contract Call`, or the end,
   * provided no other line break (`\r`, U+2028, U+2029) comes first.
   */
  lemma ReasonIsTextBeforeFirstStop(message: string, k: nat)
    requires Contains(message, Reverted)
    requires IndexOf(message, ReasonTag, 0) == Some(k)
    requires var rest := AfterTag(message, k);
             forall m :: 0 <= m < FirstStop(rest, 0) ==> !IsLineTerminator(rest[m])
    ensures FormatErrorMessage(message) == Trim(AfterTag(message, k)[..FirstStop(AfterTag(message, k), 0)])
  {
    var rest := AfterTag(message, k);
    var stop := FirstStop(rest, 0);
    assert CanEndAt(rest, 0, stop);
    var e := LazyEnd(rest, 0);
    assert e == Some(stop) by {
      assert e.Some?;
      assert !(stop < e.value);
      assert CanEndAt(rest, 0, e.value);
    }
    assert MatchesAt(message, k);
    assert forall j: nat :: j < k ==> !MatchesAt(message, j);
    assert MatchStart(message, 0) == Some(k);
  }

  /** Without any `reason: `, a reverted message is shown whole. */
  lemma NoReasonKeepsMessage(message: string)
    requires !Contains(message, ReasonTag)
    ensures FormatErrorMessage(message) == message
  {
  }

  /** The link target taken from an error message. */
  datatype DocsLink =
    | NoLink                // the message has no `Docs:`
    | Link(href: string)
    | LinkFault             // `split('Docs: ')[1]` is undefined, so rendering throws

  /**
   * `href` is the text right after the first `Docs: `, running up to the first
   * newline or further `Docs: `, or to the end.
   */
  ghost predicate IsDocsHref(message: string, href: string) {
    && '\n' !in href
    && Contains(message, DocsTag)
    && var start := IndexOf(message, DocsTag, 0).value + |DocsTag|;
       && start + |href| <= |message|
       && message[start..start + |href|] == href
       && (forall j: nat :: start <= j < start + |href| ==> !OccursAt(message, j, DocsTag))
       && (|| start + |href| == |message|
           || OccursAt(message, start + |href|, "\n")
           || OccursAt(message, start + |href|, DocsTag))
  }

  /** A link that stops earlier than another one would have to stop inside it, which neither may do. */
  lemma DocsHrefNotShorter(message: string, a: string, b: string)
    requires IsDocsHref(message, a) && IsDocsHref(message, b)
    ensures |a| >= |b|
  {
    var start := IndexOf(message, DocsTag, 0).value + |DocsTag|;
    var e := start + |a|;
    forall p | start <= p < start + |b|
      ensures message[p] != '\n'
    {
      assert message[p] == b[p - start];
    }
    if OccursAt(message, e, "\n") {
      assert message[e] == message[e..e + 1][0];
    }
  }

  /** The conditions fix the link: at most one text satisfies them. */
  lemma DocsHrefUnique(message: string, a: string, b: string)
    requires IsDocsHref(message, a) && IsDocsHref(message, b)
    ensures a == b
  {
    DocsHrefNotShorter(message, a, b);
    DocsHrefNotShorter(message, b, a);
  }

  lemma TagImpliesMarker(message: string)
    requires Contains(message, DocsTag)
    ensures Contains(message, DocsMarker)
  {
    var k := IndexOf(message, DocsTag, 0).value;
    assert message[k..k + |DocsMarker|] == message[k..k + |DocsTag|][..|DocsMarker|];
    ContainsAt(message, DocsMarker, k);
  }

  lemma FirstLineOfSecondField(message: string)
    requires Contains(message, DocsTag)
    ensures IsDocsHref(message, FirstField(SecondField(message, DocsTag).value, "\n"))
  {
    var field := SecondField(message, DocsTag).value;
    var href := FirstField(field, "\n");
    var start := IndexOf(message, DocsTag, 0).value + |DocsTag|;
    forall m | 0 <= m < |href|
      ensures href[m] != '\n'
    {
      assert !OccursAt(field, m, "\n");
      assert field[m..m + 1] == [field[m]];
    }
    if |href| < |field| {
      assert field[|href|] == '\n';
      assert message[start + |href|] == field[|href|];
      assert message[start + |href|..start + |href| + 1] == "\n";
    }
  }

  /** `message.includes('Docs:') && message.split('Docs: ')[1].split('\n')[0]`. */
  function DocsHref(message: string): (r: DocsLink)
    ensures r.NoLink? <==> !Contains(message, DocsMarker)
    ensures r.LinkFault? <==> Contains(message, DocsMarker) && !Contains(message, DocsTag)
    ensures r.Link? ==> IsDocsHref(message, r.href)
  {
    if !Contains(message, DocsMarker) then
      assert !Contains(message, DocsTag) by {
        if Contains(message, DocsTag) {
          TagImpliesMarker(message);
        }
      }
      NoLink
    else
      match SecondField(message, DocsTag)
      case None => LinkFault
      case Some(field) =>
        FirstLineOfSecondField(message);
        Link(FirstField(field, "\n"))
  }

  /** What the panel shows. */
  datatype StatusView =
    | Hidden
    | PendingNote(text: Option<string>)
    | SuccessNote(text: Option<string>)
    | FailureNote(reason: string, docs: DocsLink)

  /** The `StatusMessage` component. */
  function View(status: TradeStatus): (v: StatusView)
    ensures v.Hidden? <==> status.kind == Idle || (status.kind == Error && status.error.None?)
    ensures v.PendingNote? <==> status.kind == Pending
    ensures v.SuccessNote? <==> status.kind == Success
    ensures v.PendingNote? || v.SuccessNote? ==> v.text == status.message
    ensures v.FailureNote? ==> && status.error.Some?
                               && v.reason == FormatErrorMessage(status.error.value.message)
                               && v.docs == DocsHref(status.error.value.message)
  {
    match status.kind
    case Idle => Hidden
    case Pending => PendingNote(status.message)
    case Success => SuccessNote(status.message)
    case Error =>
      match status.error
      case Some(e) => FailureNote(FormatErrorMessage(e.message), DocsHref(e.message))
      case None => Hidden
  }

  /** One vocabulary for every action: the panel never depends on whether a buy, a sell or an approval set the status. */
  lemma ViewIgnoresAction(status: TradeStatus, action: Action)
    ensures View(status.(action := action)) == View(status)
  {
  }
}

=== FILE: text.dfy ===
/**
 * The JavaScript string operations the trade components rely on:
 * `indexOf`, `includes`, `split(sep)[i]` and `trim`.
 */
module Text {
  import opened Optional

  /** `p` occurs in `s` starting at index `i`. */
  predicate OccursAt(s: string, i: nat, p: string) {
    i + |p| <= |s| && s[i..i + |p|] == p
  }

  /** The first index at or after `from` where `p` occurs (`s.indexOf(p, from)`). */
  function IndexOf(s: string, p: string, from: nat): (r: Option<nat>)
    ensures r.Some? ==> from <= r.value && OccursAt(s, r.value, p)
    ensures r.Some? ==> forall k: nat :: from <= k < r.value ==> !OccursAt(s, k, p)
    ensures r.None? ==> forall k: nat :: from <= k ==> !OccursAt(s, k, p)
    decreases |s| - from
  {
    if from + |p| > |s| then None
    else if OccursAt(s, from, p) then Some(from)
    else IndexOf(s, p, from + 1)
  }

  /** `s.includes(p)`. */
  predicate Contains(s: string, p: string) {
    IndexOf(s, p, 0).Some?
  }

  lemma ContainsAt(s: string, p: string, i: nat)
    requires OccursAt(s, i, p)
    ensures Contains(s, p)
  {
  }

  /** Text from `start` up to the next occurrence of `sep` (or the end): one field of `s.split(sep)`. */
  function FieldFrom(s: string, sep: string, start: nat): (r: string)
    requires start <= |s|
    requires |sep| > 0
    ensures start + |r| <= |s| && r == s[start..start + |r|]
    ensures start + |r| == |s| || OccursAt(s, start + |r|, sep)
    ensures forall k: nat :: start <= k < start + |r| ==> !OccursAt(s, k, sep)
  {
    match IndexOf(s, sep, start)
    case Some(k) => s[start..k]
    case None => s[start..]
  }

  /** `s.split(sep)[0]`: the text before the first separator. */
  function FirstField(s: string, sep: string): (r: string)
    requires |sep| > 0
    ensures |r| <= |s| && r == s[..|r|]
    ensures !Contains(s, sep) ==> r == s
    ensures Contains(s, sep) ==> OccursAt(s, |r|, sep) && IndexOf(s, sep, 0) == Some(|r|)
  {
    FieldFrom(s, sep, 0)
  }

  /** `s.split(sep)[1]`: the text between the first and second separator; `None` is JavaScript's `undefined`. */
  function SecondField(s: string, sep: string): (r: Option<string>)
    requires |sep| > 0
    ensures r.Some? <==> Contains(s, sep)
    ensures r.Some? ==> var k := IndexOf(s, sep, 0).value;
                        && k + |sep| + |r.value| <= |s|
                        && r.value == s[k + |sep|..k + |sep| + |r.value|]
                        && forall j: nat :: k + |sep| <= j < k + |sep| + |r.value| ==> !OccursAt(s, j, sep)
  {
    match IndexOf(s, sep, 0)
    case Some(k) => Some(FieldFrom(s, sep, k + |sep|))
    case None => None
  }

  /** The characters `String.prototype.trim` removes: ECMAScript WhiteSpace and LineTerminator. */
  predicate IsSpace(c: char) {
    var n := c as int;
    || n == 0x09 || n == 0x0A || n == 0x0B || n == 0x0C || n == 0x0D || n == 0x20
    || n == 0xA0 || n == 0x1680 || (0x2000 <= n <= 0x200A) || n == 0x2028 || n == 0x2029
    || n == 0x202F || n == 0x205F || n == 0x3000 || n == 0xFEFF
  }

  predicate AllSpace(s: string) {
    forall i :: 0 <= i < |s| ==> IsSpace(s[i])
  }

  /** The first index at or after `i` that holds no whitespace. */
  function SkipLeading(s: string, i: nat): (k: nat)
    requires i <= |s|
    ensures i <= k <= |s|
    ensures forall m :: i <= m < k ==> IsSpace(s[m])
    ensures k < |s| ==> !IsSpace(s[k])
    decreases |s| - i
  {
    if i == |s| || !IsSpace(s[i]) then i else SkipLeading(s, i + 1)
  }

  /** The end of `s[lo..j]` once its trailing whitespace is dropped. */
  function SkipTrailing(s: string, lo: nat, j: nat): (k: nat)
    requires lo <= j <= |s|
    ensures lo <= k <= j
    ensures forall m :: k <= m < j ==> IsSpace(s[m])
    ensures lo < k ==> !IsSpace(s[k - 1])
    decreases j
  {
    if j == lo || !IsSpace(s[j - 1]) then j else SkipTrailing(s, lo, j - 1)
  }

  /** `s.trim()`. */
  function Trim(s: string): (r: string)
    ensures |r| > 0 ==> !IsSpace(r[0]) && !IsSpace(r[|r| - 1])
    ensures |r| == 0 <==> AllSpace(s)
    ensures exists a: nat, b: nat :: TrimCut(s, a, b) && r == s[a..b]
  {
    var a := SkipLeading(s, 0);
    var b := SkipTrailing(s, a, |s|);
    assert TrimCut(s, a, b);
    s[a..b]
  }

  /** `s[a..b]` is `s` with an all-whitespace prefix and suffix removed. */
  ghost predicate TrimCut(s: string, a: nat, b: nat) {
    && a <= b <= |s|
    && AllSpace(s[..a])
    && AllSpace(s[b..])
  }

  /** Every character of the trimmed text is a character of the original. */
  lemma TrimKeepsCharacters(s: string, c: char)
    requires c in Trim(s)
    ensures c in s
  {
    var a: nat, b: nat :| TrimCut(s, a, b) && Trim(s) == s[a..b];
    var i :| 0 <= i < |Trim(s)| && Trim(s)[i] == c;
    assert s[a + i] == c;
  }
}

=== FILE: trader.dfy ===
/**
 * `token-trader/TokenTrader.tsx`: the one session both buttons share (the
 * quantity text and the live `TradeStatus`), how their effects change it,
 * the success timer, and the cost line.
 */
module Trader {
  import opened Optional
  import opened Numbers
  import opened Calls
  import opened Types
  import opened Effects
  import StatusMessage
  import Buy = BuyButton
  import Sell = SellButton

  /** The component's state: `quantity` and `status`. */
  datatype Session = Session(quantity: string, status: TradeStatus)

  /** `useState('')` and `useState({ type: 'idle', action: 'buy' })`: nothing typed, nothing shown. */
  function Initial(): (s: Session)
    ensures s.quantity == "" && s.status == IdleBuy
    ensures s.status.kind == Idle && s.status.action == Buy
    ensures StatusMessage.View(s.status) == StatusMessage.Hidden
  {
    Session("", IdleBuy)
  }

  /** One effect as seen by the session: only status and quantity changes touch it. */
  function Apply(s: Session, e: Effect): Session {
    match e
    case SetStatus(st) => s.(status := st)
    case SetQuantity(q) => s.(quantity := q)
    case _ => s
  }

  function Run(s: Session, effects: seq<Effect>): Session
    decreases |effects|
  {
    if effects == [] then s else Run(Apply(s, effects[0]), effects[1..])
  }

  lemma {:induction false} RunConcat(s: Session, a: seq<Effect>, b: seq<Effect>)
    ensures Run(s, a + b) == Run(Run(s, a), b)
    decreases |a|
  {
    if a == [] {
      assert a + b == b;
    } else {
      assert (a + b)[1..] == a[1..] + b;
      RunConcat(Apply(s, a[0]), a[1..], b);
    }
  }

  /**
   * The live status after any run of effects, from whichever button, is the
   * last status set, or the previous one when none was set.
   */
  lemma {:induction false} RunLeavesLastStatus(s: Session, effects: seq<Effect>)
    ensures Run(s, effects).status == LastStatus(effects, s.status)
    decreases |effects|
  {
    if effects != [] {
      var n := |effects| - 1;
      var front := effects[..n];
      assert effects == front + [effects[n]];
      RunConcat(s, front, [effects[n]]);
      RunLeavesLastStatus(s, front);
    }
  }

  /**
   * Both buttons write the same status: effects of one followed by effects of
   * the other leave the other's last status, if it set one.
   */
  lemma ButtonsShareOneStatus(s: Session, first: seq<Effect>, second: seq<Effect>)
    ensures Run(s, first + second).status == LastStatus(second, LastStatus(first, s.status))
    ensures !SetsNoStatus(second) ==> Run(s, first + second).status == LastStatus(second, s.status)
  {
    RunConcat(s, first, second);
    RunLeavesLastStatus(s, first);
    RunLeavesLastStatus(Run(s, first), second);
    RunLeavesLastStatus(s, second);
  }

  /** Only a success status arms the reset timer. */
  predicate TimerArmed(s: Session) {
    s.status.kind == Success
  }

  /** The 3-second timer of lines 24-32 running out: back to idle/buy with the quantity cleared. */
  function TimerExpires(s: Session): (r: Session)
    ensures TimerArmed(s) ==> r == Initial()
    ensures !TimerArmed(s) ==> r == s
  {
    if s.status.kind == Success then Session("", IdleBuy) else s
  }

  /** Pending and error statuses stay until something else replaces them, and expiry is final. */
  lemma OnlySuccessIsTransient(s: Session)
    ensures TimerExpires(s) != s ==> s.status.kind == Success
    ensures s.status.kind == Pending || s.status.kind == Error ==> TimerExpires(s) == s
    ensures TimerExpires(TimerExpires(s)) == TimerExpires(s)
  {
  }

  /** The success step of a confirmed trade is the same whether it runs once or, as written, twice. */
  lemma FinishTwiceIsFinishOnce(s: Session, action: Action)
    ensures Run(s, Finish(action) + Finish(action)) == Run(s, Finish(action))
    ensures Run(s, Finish(action)) == Session("", SuccessStatus(TransactionSuccessful, action))
  {
    var f := Finish(action);
    var s1 := Apply(s, f[0]);
    assert Run(s, f) == Run(s1, f[1..]);
    assert f[1..] == [SetQuantity("")] && f[1..][1..] == [];
    assert Run(s1, f[1..]) == Run(Apply(s1, f[1]), []);
    RunConcat(s, f, f);
  }

  /**
   * A confirmed trade leaves the session showing success with the quantity
   * cleared, whatever it showed before; the timer then returns it to the
   * initial session.
   */
  lemma ConfirmedTradeEndsAtStart(s: Session, action: Action, allowance: Field)
    ensures Run(s, AfterTrade(action, allowance)) == Session("", SuccessStatus(TransactionSuccessful, action))
    ensures TimerExpires(Run(s, AfterTrade(action, allowance))) == Initial()
  {
    var r := AfterTrade(action, allowance);
    var front := r[..|r| - 4];
    assert r == front + (Finish(action) + Finish(action));
    RunConcat(s, front, Finish(action) + Finish(action));
    FinishTwiceIsFinishOnce(Run(s, front), action);
  }

  /** The buy and sell confirmation effects both end where the session began. */
  lemma BuyAndSellConfirmationsReset(s: Session)
    ensures TimerExpires(Run(s, Buy.OnBuyConfirmed())) == Initial()
    ensures TimerExpires(Run(s, Sell.OnSellConfirmed())) == Initial()
    ensures Run(s, Buy.OnBuyConfirmed()).status.action == Buy
    ensures Run(s, Sell.OnSellConfirmed()).status.action == Sell
  {
    ConfirmedTradeEndsAtStart(s, Buy, ReserveAllowance);
    ConfirmedTradeEndsAtStart(s, Sell, TokenAllowance);
  }

  /**
   * With a working approval binding, a buy that needs approval submits exactly
   * one approval, then, once it confirms, exactly one buy of the same quantity.
   */
  lemma ApprovedBuySubmitsApprovalThenBuy(d: Deployment, token: Token, v: Buy.BuyView, resumeFirst: bool)
    requires v.quantity != "" && Buy.NeedsApproval(v.quantity, v.cost, v.allowance)
    requires BuyCall(d, token.address, v.quantity).Some?
    ensures Submissions(Buy.HandleBuy(d, token, v, true, None) + Buy.OnApprovalConfirmed(d, token, v.quantity, None, resumeFirst))
            == [Write(ApproveReserveCall(d, Buy.ApproveAmount(v.cost))), Write(BuyCall(d, token.address, v.quantity).value)]
  {
    var click := Buy.HandleBuy(d, token, v, true, None);
    SubmissionsOfConcat(click, Buy.OnApprovalConfirmed(d, token, v.quantity, None, resumeFirst));
    assert Submissions(click) == [Write(ApproveReserveCall(d, Buy.ApproveAmount(v.cost)))] by {
      var x := Submissions(click)[0];
      assert x in Submissions(click);
    }
  }

  /** A sell that needs approval submits one token approval, then, once it confirms, one sell of the same quantity. */
  lemma ApprovedSellSubmitsApprovalThenSell(d: Deployment, token: Token, v: Sell.SellView, resumeFirst: bool)
    requires Sell.Renders(v) && v.quantity != "" && Sell.CanSell(v.quantity, v.tokenBalance)
    requires Sell.NeedsTokenApproval(v.quantity, v.tokenAllowance).value
    requires SellCall(d, token.address, v.quantity).Some?
    ensures Submissions(Sell.HandleSell(d, token, v, None) + Sell.OnApprovalConfirmed(d, token, v.quantity, None, resumeFirst))
            == [TokenApproval(token.address, v.quantity), Write(SellCall(d, token.address, v.quantity).value)]
  {
    var click := Sell.HandleSell(d, token, v, None);
    var confirmed := Sell.OnApprovalConfirmed(d, token, v.quantity, None, resumeFirst);
    var pending := SetStatus(PendingStatus(Sell.ApprovingSymbol(token.symbol), Approve));
    var submit := Submit(TokenApproval(token.address, v.quantity));
    assert click == [pending, submit] by {
      Sell.ClickOrder(d, token, v, None);
    }
    assert Submissions(click) == [TokenApproval(token.address, v.quantity)] by {
      SubmissionsOfConcat([pending], [submit]);
      assert [pending] + [submit] == click;
    }
    assert Submissions(confirmed) == [Write(SellCall(d, token.address, v.quantity).value)];
    SubmissionsOfConcat(click, confirmed);
  }

  /**
   * The two approval effects race. When the resumed buy's continuation runs
   * first, "Approval successful!" is the last status set; that arms the reset
   * timer, which clears the quantity although the buy was submitted.
   */
  lemma ApprovalRaceCanEndInApprovalSuccess(s: Session, d: Deployment, token: Token, quantity: string, fault: Option<Failure>, resumeFirst: bool)
    ensures var after := Run(s, Buy.OnApprovalConfirmed(d, token, quantity, fault, resumeFirst));
            after.status == SuccessStatus(ApprovalSuccessful, Approve) || after.status.action == Buy
    ensures quantity == "" || resumeFirst ==>
              && Run(s, Buy.OnApprovalConfirmed(d, token, quantity, fault, resumeFirst)).status == SuccessStatus(ApprovalSuccessful, Approve)
              && TimerExpires(Run(s, Buy.OnApprovalConfirmed(d, token, quantity, fault, resumeFirst))) == Initial()
  {
    var r := Buy.OnApprovalConfirmed(d, token, quantity, fault, resumeFirst);
    RunLeavesLastStatus(s, r);
    var n := |r| - 1;
    if quantity == "" || resumeFirst {
      assert r[n] == SetStatus(SuccessStatus(ApprovalSuccessful, Approve));
    } else {
      assert r[n - 1] == SetStatus(PendingStatus(Buy.BuyingTokens, Buy));
      assert r[n].SetStatus? ==> r[n].status.action == Buy;
      assert !r[n].SetStatus? ==> LastSetAt(r, n - 1);
    }
  }

  /** `cost ? BigInt(cost?.toString()) : '0'`: the "Total Cost" figure. */
  function CostDisplay(cost: Option<nat>): (r: string)
    ensures r == NatToString(cost.GetOr(0))
    ensures ParseBigInt(r) == Some(cost.GetOr(0))
  {
    match cost
    case None => "0"
    case Some(c) =>
      if c == 0 then "0"
      else
        ParseBigIntOfNatToString(c);
        NatToString(ParseBigInt(NatToString(c)).value)
  }
}

=== FILE: types.dfy ===
/**
 * The shared vocabulary of the trade components: the `TradeStatus` record
 * of `token-trader/types.ts`, and the effects a handler or effect hook has.
 */
module Types {
  import opened Optional
  import opened Calls

  datatype Kind = Idle | Pending | Success | Error

  datatype Action = Buy | Sell | Approve

  /** A thrown JavaScript `Error`, reduced to its message. */
  datatype Failure = Failure(message: string)

  /** `{ type, message?, error?, action }`. */
  datatype TradeStatus = TradeStatus(kind: Kind, message: Option<string>, error: Option<Failure>, action: Action)

  function PendingStatus(message: string, action: Action): TradeStatus {
    TradeStatus(Pending, Some(message), None, action)
  }

  function SuccessStatus(message: string, action: Action): TradeStatus {
    TradeStatus(Success, Some(message), None, action)
  }

  function ErrorStatus(error: Failure, action: Action): TradeStatus {
    TradeStatus(Error, None, Some(error), action)
  }

  /** `{ type: 'idle', action: 'buy' }`. */
  const IdleBuy: TradeStatus := TradeStatus(Idle, None, None, Buy)

  /** The part of `TokenInfo` the trade components use. */
  datatype Token = Token(address: Address, symbol: string)

  /**
   * The error `parseEther` throws for text it cannot read, reduced to its short
   * message; the version and detail lines viem appends are not modelled.
   */
  function InvalidDecimal(text: string): Failure {
    Failure("Number `" + text + "` is not a valid decimal number.")
  }

  /** The TypeError thrown when a name the hook did not return is called. */
  function NotAFunction(name: string): Failure {
    Failure(name + " is not a function")
  }
}
